=== FILE: README.md ===
# LinkedUp matching core, modelled in Dafny

This project models the logic at the core of the LinkedUp social-matching web app. The main part is the
matching engine in `src/lib/matchingService.js`. It takes the pool of active users and keeps the
candidates whose age (`age || 25`) lies in the requester's `ageRange`. When both locations are
known, it also keeps only those no farther away than `maxDistance || 25`. Each survivor gets a
`compatibility` score: 50 per shared interest, 40 per shared activity and 10 per shared day, plus
an age-proximity term. The survivors are then sorted by score, highest first, and ties keep their
pool order.

The project also models the small pure helpers around the engine:

- from `src/lib/chatService.js`: the deterministic chat id, create-if-absent of a chat, the
  in-memory chat listing with display names, and the `lastMessage` merge write;
- from `src/components/Stack/Stack.jsx`: `sendToBack` and the card tilt;
- from `src/pages/SetupProfilePage.jsx`: `toggleDay` and the profile update record;
- from `src/components/AuthTest.jsx`: the sign-up record.

Modules:

- `Wrappers`: `Option` (a value that may be missing) and `Result` (the services'
  `{ success, data | error }`).
- `Seqs`: the order-preserving `Filter` of `Array.prototype.filter`, plus duplicate-freeness.
- `JsStrings`: the JavaScript built-ins the code leans on, written out:
  - `trim`, over the WhiteSpace and LineTerminator sets of ECMA-262;
  - `split` and `join` on one character;
  - `parseInt` without a radix, including the sign, the `0x` prefix and stopping at the first non-digit;
  - the default string order of `Array.prototype.sort`.
- `Matching`, `Chats`, `CardStack`, `ProfileSetup`, `SignUp`: one module per source file.

A number field of a user document is `undefined`, `null`, `NaN` or a number (`Matching.Num`),
because the three non-numbers behave differently: `age || 25` treats all three as 25, while
`Math.abs(a - null)` is `|a|` and `Math.abs(a - undefined)` is `NaN`. A `location` is either
coordinates from the browser or the free text the profile page stores (`Matching.Place`).

The distance function of the location service is not part of this model. `FindMatches` takes it
as a parameter `dist` from two places to a distance, where `None` stands for `NaN` (what
`calculateDistance` gives for a text place, whose `latitude` is undefined). The pool fetch is
also a parameter: its outcome is passed in as a `Result`. Server timestamps are passed in as
integers, one per write (`now`, and `msgTime` and `lastTime` for the two writes of sending a
message).

Behaviour of the code worth knowing, which the model follows:

- A requester without `ageRange` matches nobody, because `x >= undefined` is false. A `null`
  bound reads as 0.
- Overlaps count the requester's duplicate entries each time; this is not a set intersection.
  `Matching.OverlapOfDistinct` shows the two agree on duplicate-free lists.
- Defaults use `||`, not `??`: an age of 0 is gated as 25, and a `maxDistance` of 0 reads as 25.
- A `null` age is scored as age 0, so such a candidate is scored by the requester's own age.
  An undefined or `NaN` age makes the score `NaN`; the model requires that the ages of scored
  candidates are numbers or `null`.

## Model

| member | source | states |
|---|---|---|
| Matching.FindMatches | src/lib/matchingService.js:5-45 | a failed fetch gives a failure with the same error, and never a success. Otherwise the result is sorted by score, highest first. Every entry is an eligible pool record with its own score attached. Every eligible pool record appears. As a multiset, the result is the scored survivors. Only the records that pass the gates need scorable ages. |
| Matching.FindMatchesStable | src/lib/matchingService.js:13-39 | for every score, the matches with that score appear in pool order (stable sort) |
| Matching.FindMatchesIsTheStableSort | src/lib/matchingService.js:39 | any sorted arrangement of the scored survivors that keeps equal scores in pool order is exactly the result |
| Matching.StableSortUnique | src/lib/matchingService.js:39 | two score-sorted sequences with the same per-score subsequences are equal |
| Matching.SortDesc | src/lib/matchingService.js:39 | the sort is a permutation of its input and is non-increasing in compatibility |
| Matching.SortStable | src/lib/matchingService.js:39 | the sort keeps the relative order of entries with equal scores |
| Matching.Insert | src/lib/matchingService.js:39 | inserting adds exactly the one entry and keeps a sorted sequence sorted |
| Matching.InsertStable | src/lib/matchingService.js:39 | the inserted entry goes before the existing entries of its own score, and other scores are untouched |
| Matching.Scored | src/lib/matchingService.js:35-38 | each survivor is kept unchanged and paired with its compatibility, in the same order |
| Matching.Survivors | src/lib/matchingService.js:14-34 | a record survives exactly when it is in the pool and passes both gates, and the filter never adds records |
| Matching.InAgeRange | src/lib/matchingService.js:16-19 | a candidate passes exactly when both bounds convert to numbers (`null` to 0) and `age \|\| 25` lies between them. A requester without a range admits nobody. |
| Matching.WithinDistance | src/lib/matchingService.js:22-31 | unless both locations are truthy the gate passes. A passing candidate with both locations truthy has a distance that is a number. |
| Matching.NumberOr | src/lib/matchingService.js:16 | `x \|\| d` on a number field: a non-zero number is kept, while `undefined`, `null`, `NaN` and 0 all give the default |
| Matching.ToNumber | src/lib/matchingService.js:18-19 | a number converts to itself, `null` converts to 0, and `undefined` and `NaN` convert to `NaN`. Nothing else converts to `NaN`. |
| Matching.EmptyPoolNoMatches | src/lib/matchingService.js:13-41 | an empty pool gives a success with no matches, not a failure, whatever the requester's profile |
| Matching.NoAgeRangeNoMatches | src/lib/matchingService.js:16-19 | a requester without `ageRange` matches nobody, whatever the ages in the pool |
| Matching.AgeGateBounds | src/lib/matchingService.js:16 | an undefined, `null`, `NaN` or zero age passes the age gate exactly when an age of 25 would |
| Matching.AgeGateNullAndMissing | src/lib/matchingService.js:17-19 | a `null` lower bound acts as 0, and a missing range admits no age |
| Matching.DistanceGateCases | src/lib/matchingService.js:22-31 | with either location missing, or an empty text location, the distance gate passes. With both truthy, it fails exactly when the distance is `NaN` or exceeds `maxDistance \|\| 25`. |
| Matching.NoLocationAgeOnly | src/lib/matchingService.js:22-33 | without a requester location, a pool record is matched exactly when it passes the age gate |
| Matching.Overlap | src/lib/matchingService.js:50-56 | the overlap is at most the requester's list length, and is 0 when the candidate's list is empty or missing |
| Matching.OverlapCountsPositions | src/lib/matchingService.js:53-55 | the overlap equals the number of positions of the requester's list whose entry occurs in the candidate's list |
| Matching.OverlapAppend | src/lib/matchingService.js:53-55 | appending one entry raises the overlap by 1 exactly when the entry occurs in the candidate's list |
| Matching.OverlapSingle | src/lib/matchingService.js:53-55 | a one-entry list overlaps 1 or 0 depending on membership |
| Matching.OverlapOfDistinct | src/lib/matchingService.js:53-55 | on a duplicate-free requester list, the overlap is the size of the set intersection |
| Matching.OverlapSymmetric | src/lib/matchingService.js:53-69 | between duplicate-free lists, the overlap is the same in both directions |
| Matching.AgeTerm | src/lib/matchingService.js:72-78 | the age term always lies in [1, 30] |
| Matching.AgeTermAntitone | src/lib/matchingService.js:72-78 | a wider age gap never earns a larger age term |
| Matching.AgeTermSymmetric | src/lib/matchingService.js:72 | the age term is unchanged when the two ages are swapped |
| Matching.AgeTermExamples | src/lib/matchingService.js:72-78 | equal ages give 30, (30,35) gives 6, (30,29) and (29,30) give 30, and a 60-year gap gives 1 |
| Matching.Score | src/lib/matchingService.js:47-82 | the compatibility is at least 1 whenever both ages are numbers or `null` |
| Matching.NullAgeScoresAsZero | src/lib/matchingService.js:72-78 | a candidate with a `null` age scores as one of age 0, so its age term is that of the requester's own age |
| Matching.ScoreSharedInterest | src/lib/matchingService.js:50-56 | one more requester interest that the candidate has raises the score by exactly 50 |
| Matching.ScoreSharedActivity | src/lib/matchingService.js:58-64 | one more requester activity that the candidate has raises the score by exactly 40 |
| Matching.ScoreSharedDay | src/lib/matchingService.js:66-70 | one more requester day that the candidate has raises the score by exactly 10 |
| Matching.ScoreSymmetric | src/lib/matchingService.js:47-82 | with duplicate-free lists, the score does not depend on which profile is the requester |
| Matching.ScenarioScore | src/lib/matchingService.js:47-82 | the worked example: two shared interests, one shared activity, one shared day and a 2-year gap score 165 |
| Matching.ScenarioSurvivors | src/lib/matchingService.js:14-34 | in the worked example, the candidate outside the age range is filtered out and the other survives |
| Matching.Scenario | src/lib/matchingService.js:13-41 | the whole pipeline on the worked example returns exactly the one match with score 165 |
| Seqs.Filter | src/lib/matchingService.js:14-34 | the filter keeps exactly the elements satisfying the predicate, each as often as in the input, and is never longer than the input |
| Seqs.FilterAppend | src/lib/chatService.js:65-70 | filtering a concatenation is the concatenation of the filtered parts, so the filter keeps input order |
| Chats.ChatId | src/lib/chatService.js:24 | the chat id is one user id, `_`, then the other, with the first no greater than the second in string order |
| Chats.ChatIdSymmetric | src/lib/chatService.js:24 | the chat id for (a, b) equals the chat id for (b, a) |
| Chats.GetOrCreateChat | src/lib/chatService.js:18-40 | returns the chat id and only adds that key. Existing chats are untouched. A new chat has that id, the participants `[user1, user2]` in that order, the creation time, and no last message. |
| Chats.GetOrCreateExisting | src/lib/chatService.js:27-39 | opening a chat whose id is already stored leaves the store unchanged and returns the id |
| Chats.GetOrCreateIdempotent | src/lib/chatService.js:18-40 | opening a chat a second time, from either side and at any later time, changes nothing and returns the same id |
| Chats.NewChatListedForBoth | src/lib/chatService.js:29-37 | a new chat is listed for both users, and each sees the other's name. A self-chat is listed as "Unknown User". |
| Chats.Involves | src/lib/chatService.js:66-69 | a chat involves the user exactly when it has a `participants` list and some position of it holds the user's id |
| Chats.OtherName | src/lib/chatService.js:73-76 | the name of the first participant whose id differs from the user, or "Unknown User" when none does |
| Chats.DisplayName | src/lib/chatService.js:71-77 | a chat without participants, or whose participants are all the user, is named "Unknown User". Otherwise it is named after the first participant that is not the user. |
| Chats.UserChats | src/lib/chatService.js:65-78 | every delivered chat is from the snapshot and has the user among its participants. Every such chat is delivered. Each carries its display name. |
| Chats.UserChatsAppend | src/lib/chatService.js:65-78 | the listing keeps snapshot order: listing a concatenation is the concatenation of the listings |
| Chats.UserChatsSingle | src/lib/chatService.js:65-70 | a chat without `participants`, or without the user among them, is dropped |
| Chats.SelfChatUnknown | src/lib/chatService.js:73-76 | a chat whose participants all have the user's id is named "Unknown User", whatever names the entries carry |
| Chats.SelfChatCreated | src/lib/chatService.js:24-33 | a chat the user opens with themself stores both entries under the user's id, possibly with two different names, and is listed as "Unknown User" |
| Chats.SenderName | src/lib/chatService.js:104 | a non-empty `name` is the sender name. A missing or empty one falls back to `displayName`. |
| Chats.NewMessage | src/lib/chatService.js:101-108 | the message carries the text, the sender's uid, the sender name, the avatar, the time and the type "text" |
| Chats.AddMessage | src/lib/chatService.js:110 | the first write appends the message to that chat's messages and changes nothing else |
| Chats.SetLastMessage | src/lib/chatService.js:113-114 | the merge write sets the chat's `lastMessage`, keeps its other fields, creates a chat holding only that field when none exists, and changes nothing else |
| Chats.SendChatMessage | src/lib/chatService.js:100-115 | the two writes in order: the message, stamped with the first write's time, is appended to that chat's messages. The chat's `lastMessage` becomes the same message stamped with the second write's time, and its other fields are unchanged. Other chats are unchanged. |
| Chats.LastMessageIsSent | src/lib/chatService.js:108-114 | after both writes `lastMessage` is the last stored message except for its timestamp |
| Chats.SendKeepsListing | src/lib/chatService.js:112-114 | sending a message does not change who sees the chat or the name it is listed under |
| CardStack.FindIndex | src/components/Stack/Stack.jsx:19 | the first index of a card with the id, or -1 exactly when no card has it |
| CardStack.FindIndexAt | src/components/Stack/Stack.jsx:19 | the first card with the id is the one found |
| CardStack.SendToBack | src/components/Stack/Stack.jsx:16-24 | keeps length and the multiset of cards. A present id ends up at index 0. An absent id moves the last card to the front. The rest is the old list with the moved card taken out. |
| CardStack.SendToBackKeepsOthers | src/components/Stack/Stack.jsx:19-21 | the cards before the moved card's old place shift up by one, and the cards after it stay where they were |
| CardStack.SendToBackFront | src/components/Stack/Stack.jsx:19-21 | a card already at index 0 leaves the list unchanged |
| CardStack.Rotations | src/components/Stack/Stack.jsx:48 | without random rotation the top (last) card is upright, and each card is tilted 4 degrees more than the one above it |
| ProfileSetup.ToggleDay | src/pages/SetupProfilePage.jsx:22-26 | the day is present afterwards exactly when it was absent before. Other days are kept with their multiplicities. An absent day is appended at the end. |
| ProfileSetup.ToggleRemoveKeepsOrder | src/pages/SetupProfilePage.jsx:24 | removing a day keeps the remaining days in their order |
| ProfileSetup.ToggleKeepsNoDup | src/pages/SetupProfilePage.jsx:24 | toggling keeps a duplicate-free list duplicate-free |
| ProfileSetup.ToggleTwiceRestores | src/pages/SetupProfilePage.jsx:24 | toggling an absent day twice returns the original list |
| ProfileSetup.CommaList | src/pages/SetupProfilePage.jsx:40 | entry i is piece i of the comma split, trimmed. So there is one entry more than commas, empty entries included, and every entry is trimmed and comma-free. |
| ProfileSetup.CommaListRoundTrip | src/pages/SetupProfilePage.jsx:40 | trimmed, comma-free entries joined with commas read back unchanged |
| ProfileSetup.Submit | src/pages/SetupProfilePage.jsx:28-46 | with nobody signed in, only the message is set and no write happens. Otherwise the write goes to the user's id with `ageRange.min` 18. The numbers are those `parseInt` reads. The two lists are the comma lists of what was typed. Bio, location and days are stored as entered. |
| ProfileSetup.SubmitStoresNumbers | src/pages/SetupProfilePage.jsx:36-42 | a typed maximum age and radius are stored as exactly those numbers |
| ProfileSetup.ResultMessage | src/pages/SetupProfilePage.jsx:48-59 | a successful write shows the saved message. A failed write shows the error after "Error: ". |
| SignUp.ParseInterests | src/components/AuthTest.jsx:63-66 | no entry is empty, every entry is trimmed and comma-free, and there are at most as many entries as commas plus one |
| SignUp.ParseInterestsPiece | src/components/AuthTest.jsx:63-66 | text without a comma reads as its trimmed self, or as no interest when that is empty |
| SignUp.ParseInterestsAppend | src/components/AuthTest.jsx:63-66 | the interests of `a,b` are those of `a` followed by those of `b`, so the reading goes comma-piece by piece, in order |
| SignUp.ParseInterestsRoundTrip | src/components/AuthTest.jsx:63-66 | non-empty, trimmed, comma-free interests joined with commas read back in order |
| SignUp.ParseInterestsExample | src/components/AuthTest.jsx:63-66 | "a, ,b," reads as the two interests "a" and "b" |
| SignUp.SignUpAge | src/components/AuthTest.jsx:61 | the age is the parsed integer, and is missing exactly when the parse gives `NaN` or 0 |
| SignUp.SignUpAgeOfNumber | src/components/AuthTest.jsx:61 | a typed non-zero integer is stored as the age |
| SignUp.SignUpData | src/components/AuthTest.jsx:59-71 | name and bio are as typed. The age is what `parseInt(age) \|\| null` gives, and the interests are the parsed interests of the typed text. The defaults are always `["outdoor","food"]`, `["saturday","sunday"]`, age range 18-65 and distance 25. |
| JsStrings.Split | src/pages/SetupProfilePage.jsx:40 | one piece more than separators, no piece holds the separator, and joining the pieces gives back the input |
| JsStrings.SplitJoin | src/pages/SetupProfilePage.jsx:40 | splitting undoes joining when no piece holds the separator |
| JsStrings.SplitTrim | src/pages/SetupProfilePage.jsx:43-45 | entry i is piece i of the split, trimmed: so one trimmed, separator-free entry per piece |
| JsStrings.Trim | src/pages/SetupProfilePage.jsx:40 | the result neither starts nor ends with white space, is the input when that is already trimmed, and is empty exactly when the input is all white space |
| JsStrings.TrimIdempotent | src/pages/SetupProfilePage.jsx:40 | trimming a trimmed string changes nothing |
| JsStrings.TrimIsSlice | src/pages/SetupProfilePage.jsx:40 | the result is a slice of the input with only white space cut off before and after it |
| JsStrings.TrimAllAppend | src/pages/SetupProfilePage.jsx:40 | trimming every entry of a concatenation is trimming both parts |
| JsStrings.TrimStart | src/pages/SetupProfilePage.jsx:36 | the result is a suffix of the input, what is cut off is white space, and it does not start with white space |
| JsStrings.ParseInt | src/pages/SetupProfilePage.jsx:36 | all-white-space text is `NaN`. A number is only read when the first non-space character is a sign or a digit, and a negative number only after a minus sign. |
| JsStrings.ParseIntOfNumeral | src/pages/SetupProfilePage.jsx:36 | `parseInt` reads back an integer's numeral, also when text that cannot continue the number follows it |
| JsStrings.ParseIntOfNatural | src/pages/SetupProfilePage.jsx:36 | the numeral of a positive integer, followed by text that cannot continue it, reads back as that integer |
| JsStrings.ParseIntOfNegative | src/pages/SetupProfilePage.jsx:36 | a minus sign and the numeral of a positive integer, followed by text that cannot continue it, read back as the negative integer |
| JsStrings.ParseIntRoundTrip | src/pages/SetupProfilePage.jsx:42 | `parseInt(String(n))` is `n` |
| JsStrings.LessEq | src/lib/chatService.js:24 | the default sort order on strings: `a` comes no later than `b` exactly when `a` is a prefix of `b` or `a` is smaller at the first position where they differ |
| JsStrings.LessEqPrefix | src/lib/chatService.js:24 | a prefix of an id sorts no later than the id |
| JsStrings.LessEqTotal | src/lib/chatService.js:24 | any two ids are ordered one way or the other by the default sort order |
| JsStrings.LessEqAntisymmetric | src/lib/chatService.js:24 | ids ordered both ways are equal |

## Left out

- `src/lib/locationService.js` is not part of this model: its Haversine `calculateDistance` uses floating-point trigonometry. `FindMatches` takes any distance function of two places as a parameter. The model does not fix what that function gives for a text place; the code gives `NaN`, which excludes the candidate, and a `dist` that returns `None` there behaves the same.
- Matching.Score: requires both ages to be numbers or `null`. In the code an undefined or `NaN` age makes the score `NaN`. If the requester's own age is undefined or `NaN`, every survivor scores `NaN`, every comparator call returns `NaN`, which the sort reads as 0, and the stable sort keeps pool order. If only some candidates score `NaN`, the comparator is inconsistent and the order is implementation-defined.
- Matching.FindMatches: requires, for the same reason, that the records passing the gates and the requester have ages that are numbers or `null`. A pool in which nobody passes puts no demand on ages. The `catch` branch (an exception thrown while filtering or scoring) is not modelled, because with the modelled types nothing throws.
- Matching.FindMatches: takes the fetched pool as given. The fetch's `isActive == true` query and its exclusion of the requester's own id (`src/lib/userService.js`, lines 108-129) are assumptions on the caller and are not checked.
- Number fields are integers. A fractional `age` or `maxDistance` is not modelled, and neither are number fields holding strings.
- Scores are exact reals. JavaScript doubles round `30/gap`, so ties between scores that differ only by rounding are not modelled.
- Chats.GetOrCreateChat: the `getDoc` read and the `setDoc` write are two separate steps, not a transaction. Two concurrent calls can both find the chat missing and both write it; the later write replaces the whole document, including its `createdAt`, its participant order and any `lastMessage` set in between. The model treats a call as one atomic step, so `GetOrCreateIdempotent` covers sequential calls only.
- Firebase I/O is represented as values or left out: auth calls and document writes in `authService.js` and `userService.js`, the realtime `onSnapshot` subscriptions, and the unused query in `listenToUserChats`. The chat store is a map and a snapshot is a sequence.
- Chats.UserChats: takes the snapshot as a sequence of chats. The `createdAt` descending order of the query is not modelled, and neither is the `{ id: doc.id, ...doc.data() }` spread where a stored `id` field overrides the document id.
- Chats.SendChatMessage: a missing `lastMessage` and a `null` one are both `None`, and a missing `senderAvatar` stands for `null`. The message's `type` field is called `kind`. The function models a run where both writes succeed and nothing comes between them. The two writes are not a transaction. If the second fails, the message is stored (`AddMessage`) and `lastMessage` still names an older message. If two senders interleave, `lastMessage` can name the earlier of their messages. The model does not cover these runs.
- JsStrings.LessEq: compares Unicode scalar values, while JavaScript compares UTF-16 code units. The two orders differ only between characters above U+FFFF and characters U+E000 to U+FFFF.
- JsStrings.ParseInt: returns the exact integer. JavaScript rounds integers beyond 2^53 to doubles.
- CardStack.SendToBack: requires a non-empty list. On an empty list the code would produce `[undefined]`, but the handler is only reachable from a rendered card.
- The random rotation and the floating-point `scale` of the stack, and all React state, effects and rendering, are left out.
- The navigation after a successful profile save (a timer, then a route change) is left out.
- The `COLLECTIONS` constant table is left out.

=== FILE: cardstack.dfy ===
/** The list logic of `src/components/Stack/Stack.jsx`: `sendToBack` moves a
    card to index 0 (the bottom of the rendered pile), and without random
    rotation each card is tilted by four degrees per card above it. */
module CardStack {

  datatype Card = Card(id: string, img: string, name: string)

  /** `cards.findIndex((card) => card.id === id)`: the first index holding the
      id, or -1 when no card has it. */
  function FindIndex(cards: seq<Card>, id: string): (r: int)
    ensures -1 <= r < |cards|
    ensures r == -1 <==> forall c :: c in cards ==> c.id != id
    ensures r >= 0 ==> cards[r].id == id && forall k :: 0 <= k < r ==> cards[k].id != id
  {
    if cards == [] then -1
    else if cards[0].id == id then 0
    else
      var k := FindIndex(cards[1..], id);
      assert cards == [cards[0]] + cards[1..];
      if k < 0 then -1
      else
        assert forall j :: 1 <= j <= k ==> cards[j] == cards[1..][j - 1];
        k + 1
  }

  /** The index `splice(index, 1)` removes: a negative start counts from the
      end, so -1 removes the last card. */
  function SpliceIndex(cards: seq<Card>, index: int): (j: nat)
    requires |cards| > 0 && -1 <= index < |cards|
    ensures j < |cards|
  {
    if index < 0 then |cards| - 1 else index
  }

  /** `sendToBack(id)`: remove the card found by `findIndex` and put it in
      front. The list must not be empty; a card that is not there moves the
      last card. */
  function SendToBack(cards: seq<Card>, id: string): (r: seq<Card>)
    requires |cards| > 0
    ensures |r| == |cards|
    ensures multiset(r) == multiset(cards)
    ensures (exists c :: c in cards && c.id == id) ==> r[0].id == id
    ensures (forall c :: c in cards ==> c.id != id) ==> r[0] == cards[|cards| - 1] && r[1..] == cards[..|cards| - 1]
    ensures exists j :: 0 <= j < |cards| && r[0] == cards[j] && r[1..] == cards[..j] + cards[j + 1..]
  {
    var j := SpliceIndex(cards, FindIndex(cards, id));
    var r := MoveToFront(cards, j);
    assert cards == cards[..j] + [cards[j]] + cards[j + 1..];
    assert r[1..] == cards[..j] + cards[j + 1..];
    r
  }

  /** The cards other than the moved one keep their relative order: the moved
      card sits at the front, the cards before its old place follow it, and
      the cards after its old place have not moved. */
  lemma SendToBackKeepsOthers(cards: seq<Card>, id: string, j: nat)
    requires j < |cards| && cards[j].id == id
    requires forall k :: 0 <= k < j ==> cards[k].id != id
    ensures var r := SendToBack(cards, id);
      && r[0] == cards[j]
      && (forall k :: 0 <= k < j ==> r[k + 1] == cards[k])
      && (forall k :: j < k < |cards| ==> r[k] == cards[k])
  {
    FindIndexAt(cards, id, j);
    assert SendToBack(cards, id) == MoveToFront(cards, j);
    MoveToFrontIndices(cards, j);
  }

  /** The card at `j` taken out and put in front. */
  function MoveToFront(cards: seq<Card>, j: nat): seq<Card>
    requires j < |cards|
  {
    [cards[j]] + (cards[..j] + cards[j + 1..])
  }

  lemma MoveToFrontIndices(cards: seq<Card>, j: nat)
    requires j < |cards|
    ensures var r := MoveToFront(cards, j);
      && |r| == |cards|
      && r[0] == cards[j]
      && (forall k :: 0 <= k < j ==> r[k + 1] == cards[k])
      && (forall k :: j < k < |cards| ==> r[k] == cards[k])
  {
    var r := MoveToFront(cards, j);
    var before, after := cards[..j], cards[j + 1..];
    forall k | 0 <= k < j ensures r[k + 1] == cards[k] {
      assert r[k + 1] == before[k];
    }
    forall k | j < k < |cards| ensures r[k] == cards[k] {
      assert r[k] == after[k - j - 1];
    }
  }

  /** `findIndex` finds the first card with the id. */
  lemma FindIndexAt(cards: seq<Card>, id: string, j: nat)
    requires j < |cards| && cards[j].id == id
    requires forall k :: 0 <= k < j ==> cards[k].id != id
    ensures FindIndex(cards, id) == j
  {
    assert cards[j] in cards;
  }

  /** A card already at the front stays, and nothing moves. */
  lemma SendToBackFront(cards: seq<Card>, id: string)
    requires |cards| > 0 && cards[0].id == id
    ensures SendToBack(cards, id) == cards
  {
    assert cards == [cards[0]] + cards[1..];
  }

  /** The tilt of the card at `index` of `count` without random rotation:
      `(cards.length - index - 1) * 4`. */
  function RotateZ(count: nat, index: nat): int
    requires index < count
  {
    (count - index - 1) * 4
  }

  /** The tilts of a whole pile: the top (last) card is upright, and each card
      is tilted four degrees more than the one above it. */
  function Rotations(count: nat): (r: seq<int>)
    ensures |r| == count
    ensures count > 0 ==> r[count - 1] == 0
    ensures forall i :: 0 <= i < count - 1 ==> r[i] == r[i + 1] + 4
    ensures forall i :: 0 <= i < count ==> r[i] >= 0
  {
    seq(count, i requires 0 <= i < count => RotateZ(count, i))
  }
}

=== FILE: chats.dfy ===
/** The pure parts of `src/lib/chatService.js`: the deterministic chat id,
    create-if-absent over the chat collection, the in-memory filter and
    display-name step run on every snapshot of the chat list, and the message
    write that also records the chat's last message. The document store is a
    map from document id to document. */
module Chats {
  import opened Wrappers
  import opened Seqs
  import opened JsStrings

  datatype Participant = Participant(id: string, name: string)

  /** A message document. `senderName` is `user.name || user.displayName`;
      the server timestamp is a parameter of the write. */
  datatype Message = Message(
    text: string,
    senderId: string,
    senderName: Option<string>,
    senderAvatar: Option<string>,
    timestamp: int,
    kind: string)

  /** A chat document. Every field may be missing; a missing `lastMessage`
      also stands for `null`. */
  datatype Chat = Chat(
    id: Option<string>,
    participants: Option<seq<Participant>>,
    createdAt: Option<int>,
    lastMessage: Option<Message>)

  /** The chats collection and, per chat, its `messages` sub-collection in
      the order the messages were added. */
  datatype Store = Store(chats: map<string, Chat>, messages: map<string, seq<Message>>)

  /** A signed-in user as the chat code reads it. */
  datatype ChatUser = ChatUser(uid: string, name: Option<string>, displayName: Option<string>, photoURL: Option<string>)

  /** A chat as delivered to the listener's callback, with its display name. */
  datatype NamedChat = NamedChat(chat: Chat, name: string)

  const Separator := "_"
  const UnknownUser := "Unknown User"

  // ----------------------------------------------------------------- chat id

  /** `[user1Id, user2Id].sort().join("_")`: the smaller id, `_`, the larger one. */
  function ChatId(a: string, b: string): (r: string)
    ensures (r == a + Separator + b && LessEq(a, b)) || (r == b + Separator + a && LessEq(b, a))
  {
    LessEqTotal(a, b);
    if LessEq(a, b) then a + Separator + b else b + Separator + a
  }

  /** Both participants compute the same chat id. */
  lemma {:induction false} ChatIdSymmetric(a: string, b: string)
    ensures ChatId(a, b) == ChatId(b, a)
  {
    LessEqTotal(a, b);
    if LessEq(a, b) && LessEq(b, a) {
      LessEqAntisymmetric(a, b);
    }
  }

  // ----------------------------------------------------- create-if-absent

  /** The document `getOrCreateChat` writes for a new chat. */
  function NewChat(chatId: string, user1Id: string, user2Id: string, user2Name: string, user1Name: string, now: int): Chat {
    Chat(Some(chatId), Some([Participant(user1Id, user1Name), Participant(user2Id, user2Name)]), Some(now), None)
  }

  /** `getOrCreateChat(user1Id, user2Id, user2Name, user1Name)`, with the
      server time as `now`: writes a new chat only when none has the id, and
      returns the id either way. */
  function GetOrCreateChat(chats: map<string, Chat>, user1Id: string, user2Id: string,
                           user2Name: string, user1Name: string, now: int): (r: (map<string, Chat>, string))
    ensures r.1 == ChatId(user1Id, user2Id)
    ensures r.0.Keys == chats.Keys + {r.1}
    ensures forall k :: k in chats ==> r.0[k] == chats[k]
    ensures r.1 !in chats ==>
      && r.0[r.1].id == Some(r.1)
      && r.0[r.1].participants == Some([Participant(user1Id, user1Name), Participant(user2Id, user2Name)])
      && r.0[r.1].createdAt == Some(now)
      && r.0[r.1].lastMessage.None?
  {
    var chatId := ChatId(user1Id, user2Id);
    if chatId in chats then (chats, chatId)
    else (chats[chatId := NewChat(chatId, user1Id, user2Id, user2Name, user1Name, now)], chatId)
  }

  /** Opening a chat that already exists changes nothing. */
  lemma GetOrCreateExisting(chats: map<string, Chat>, user1Id: string, user2Id: string,
                            user2Name: string, user1Name: string, now: int)
    requires ChatId(user1Id, user2Id) in chats
    ensures GetOrCreateChat(chats, user1Id, user2Id, user2Name, user1Name, now) == (chats, ChatId(user1Id, user2Id))
  {
  }

  /** Opening a chat twice, from either side and at any later time, has the
      effect of opening it once, and both calls return the same id. */
  lemma GetOrCreateIdempotent(chats: map<string, Chat>, user1Id: string, user2Id: string,
                              user2Name: string, user1Name: string, now: int, later: int)
    ensures var (once, id) := GetOrCreateChat(chats, user1Id, user2Id, user2Name, user1Name, now);
      && GetOrCreateChat(once, user1Id, user2Id, user2Name, user1Name, later) == (once, id)
      && GetOrCreateChat(once, user2Id, user1Id, user1Name, user2Name, later) == (once, id)
  {
    ChatIdSymmetric(user1Id, user2Id);
  }

  // ------------------------------------------------------ listing the chats

  /** The chat lists `userId` among its participants. A chat without a
      `participants` field involves nobody. */
  function Involves(userId: string, c: Chat): (r: bool)
    ensures r <==> (c.participants.Some? &&
                    exists i :: 0 <= i < |c.participants.value| && c.participants.value[i].id == userId)
  {
    c.participants.Some? && exists p :: p in c.participants.value && p.id == userId
  }

  /** `participants.find((p) => p.id !== userId)`, yielding its name, or
      "Unknown User" when every participant is `userId`. */
  function OtherName(ps: seq<Participant>, userId: string): (r: string)
    ensures (forall p :: p in ps ==> p.id == userId) ==> r == UnknownUser
    ensures forall i :: 0 <= i < |ps| && ps[i].id != userId && IdsBefore(ps, i, userId) ==> r == ps[i].name
  {
    if ps == [] then UnknownUser
    else if ps[0].id != userId then ps[0].name
    else
      var r := OtherName(ps[1..], userId);
      assert forall p :: p in ps[1..] ==> p in ps;
      forall i | 0 <= i < |ps| && ps[i].id != userId && IdsBefore(ps, i, userId) ensures r == ps[i].name {
        assert ps[1..][i - 1] == ps[i];
        assert IdsBefore(ps[1..], i - 1, userId) by {
          forall j | 0 <= j < i - 1 ensures ps[1..][j].id == userId {
            assert ps[1..][j] == ps[j + 1];
          }
        }
      }
      r
  }

  /** Every participant before position `i` is `userId`. */
  predicate IdsBefore(ps: seq<Participant>, i: int, userId: string)
    requires 0 <= i <= |ps|
  {
    forall j :: 0 <= j < i ==> ps[j].id == userId
  }

  /** The display name the listener attaches to one chat. */
  function DisplayName(userId: string, c: Chat): (r: string)
    ensures c.participants.None? ==> r == UnknownUser
    ensures c.participants.Some? && (forall p :: p in c.participants.value ==> p.id == userId) ==> r == UnknownUser
    ensures c.participants.Some? ==> var ps := c.participants.value;
      forall i :: 0 <= i < |ps| && ps[i].id != userId && IdsBefore(ps, i, userId) ==> r == ps[i].name
  {
    if c.participants.Some? then OtherName(c.participants.value, userId) else UnknownUser
  }

  /** `.map((chat) => ({ ...chat, name }))`: each chat paired with its
      display name, in order. */
  function Label(userId: string, cs: seq<Chat>): (r: seq<NamedChat>)
    ensures |r| == |cs|
    ensures forall i :: 0 <= i < |cs| ==> r[i].chat == cs[i] && r[i].name == DisplayName(userId, cs[i])
  {
    seq(|cs|, i requires 0 <= i < |cs| => NamedChat(cs[i], DisplayName(userId, cs[i])))
  }

  /** Labelling keeps exactly the chats it was given, each with its name. */
  lemma LabelMembers(userId: string, cs: seq<Chat>)
    ensures forall d :: d in Label(userId, cs) ==> d.chat in cs && d.name == DisplayName(userId, d.chat)
    ensures forall c :: c in cs ==> NamedChat(c, DisplayName(userId, c)) in Label(userId, cs)
  {
    var r := Label(userId, cs);
    forall d | d in r ensures d.chat in cs && d.name == DisplayName(userId, d.chat) {
      var i :| 0 <= i < |r| && r[i] == d;
    }
    forall c | c in cs ensures NamedChat(c, DisplayName(userId, c)) in r {
      var i :| 0 <= i < |cs| && cs[i] == c;
      assert r[i] == NamedChat(c, DisplayName(userId, c));
    }
  }

  /** One snapshot of `listenToUserChats(userId, callback)`: the chats that
      involve `userId`, in snapshot order, each with its display name. */
  function UserChats(userId: string, snapshot: seq<Chat>): (r: seq<NamedChat>)
    ensures forall d :: d in r ==> d.chat in snapshot && Involves(userId, d.chat)
    ensures forall c :: c in snapshot && Involves(userId, c) ==> NamedChat(c, DisplayName(userId, c)) in r
    ensures forall d :: d in r ==> d.name == DisplayName(userId, d.chat)
  {
    var kept := Filter(c => Involves(userId, c), snapshot);
    LabelMembers(userId, kept);
    Label(userId, kept)
  }

  /** The listing keeps snapshot order: listing a concatenation is the
      concatenation of the listings. */
  lemma UserChatsAppend(userId: string, a: seq<Chat>, b: seq<Chat>)
    ensures UserChats(userId, a + b) == UserChats(userId, a) + UserChats(userId, b)
  {
    var p := c => Involves(userId, c);
    FilterAppend(p, a, b);
    LabelAppend(userId, Filter(p, a), Filter(p, b));
  }

  lemma LabelAppend(userId: string, a: seq<Chat>, b: seq<Chat>)
    ensures Label(userId, a + b) == Label(userId, a) + Label(userId, b)
  {
    var l, la, lb := Label(userId, a + b), Label(userId, a), Label(userId, b);
    forall i | 0 <= i < |l| ensures l[i] == (la + lb)[i] {
      if i < |a| {
        assert (a + b)[i] == a[i];
      } else {
        assert (a + b)[i] == b[i - |a|];
      }
    }
  }

  /** The listing of a single chat: empty unless the chat involves `userId`. */
  lemma UserChatsSingle(userId: string, c: Chat)
    ensures UserChats(userId, [c]) == if Involves(userId, c) then [NamedChat(c, DisplayName(userId, c))] else []
  {
    FilterSingle(c => Involves(userId, c), c);
  }

  /** In a chat whose every participant is the user no other participant
      exists, whatever names the entries carry. */
  lemma SelfChatUnknown(userId: string, c: Chat)
    requires c.participants.Some? && forall p :: p in c.participants.value ==> p.id == userId
    ensures DisplayName(userId, c) == UnknownUser
  {
  }

  /** Opening a chat with oneself stores two entries for the user, which may
      carry two different names; the listing still names it "Unknown User". */
  lemma SelfChatCreated(chats: map<string, Chat>, userId: string, name2: string, name1: string, now: int)
    requires ChatId(userId, userId) !in chats
    ensures var (chats', id) := GetOrCreateChat(chats, userId, userId, name2, name1, now);
      DisplayName(userId, chats'[id]) == UnknownUser
  {
    var (chats', id) := GetOrCreateChat(chats, userId, userId, name2, name1, now);
    var ps := chats'[id].participants.value;
    assert ps == [Participant(userId, name1), Participant(userId, name2)];
    SelfChatUnknown(userId, chats'[id]);
  }

  // -------------------------------------------------------- sending messages

  /** `user.name || user.displayName`: an empty name is falsy. */
  function SenderName(user: ChatUser): (r: Option<string>)
    ensures user.name.Some? && user.name.value != "" ==> r == user.name
    ensures user.name.None? || user.name.value == "" ==> r == user.displayName
  {
    if user.name.Some? && user.name.value != "" then user.name else user.displayName
  }

  /** The message document `sendChatMessage` writes. */
  function NewMessage(user: ChatUser, text: string, now: int): (r: Message)
    ensures r.text == text && r.senderId == user.uid && r.senderAvatar == user.photoURL
    ensures r.senderName == SenderName(user) && r.timestamp == now && r.kind == "text"
  {
    Message(text, user.uid, SenderName(user), user.photoURL, now, "text")
  }

  /** `addDoc(msgRef, newMsg)`: the first of the two writes of
      `sendChatMessage`. The message is appended to the chat's messages with
      the server time of this write; the chat documents are untouched. */
  function AddMessage(store: Store, chatId: string, msg: Message): (r: Store)
    ensures r.chats == store.chats
    ensures r.messages.Keys == store.messages.Keys + {chatId}
    ensures r.messages[chatId] == (if chatId in store.messages then store.messages[chatId] else []) + [msg]
    ensures forall k :: k in store.messages && k != chatId ==> r.messages[k] == store.messages[k]
  {
    var thread := if chatId in store.messages then store.messages[chatId] else [];
    store.(messages := store.messages[chatId := thread + [msg]])
  }

  /** `setDoc(chatRef, { lastMessage: newMsg }, { merge: true })`: the second
      write. The chat's `lastMessage` becomes `msg`, every other field stays
      as it was, and a chat that does not exist is created with only that
      field. The messages are untouched. */
  function SetLastMessage(store: Store, chatId: string, msg: Message): (r: Store)
    ensures r.messages == store.messages
    ensures r.chats.Keys == store.chats.Keys + {chatId}
    ensures r.chats[chatId].lastMessage == Some(msg)
    ensures chatId in store.chats ==>
      var before, after := store.chats[chatId], r.chats[chatId];
      after.id == before.id && after.participants == before.participants && after.createdAt == before.createdAt
    ensures chatId !in store.chats ==> r.chats[chatId] == Chat(None, None, None, Some(msg))
    ensures forall k :: k in store.chats && k != chatId ==> r.chats[k] == store.chats[k]
  {
    var chat := if chatId in store.chats then store.chats[chatId] else Chat(None, None, None, None);
    store.(chats := store.chats[chatId := chat.(lastMessage := Some(msg))])
  }

  /** `sendChatMessage(chatId, user, text)` when both writes succeed and no
      other write comes between them. Each write resolves `serverTimestamp()`
      on its own: the stored message carries `msgTime` and the chat's
      `lastMessage` carries `lastTime`, and otherwise the two are the same
      message. */
  function SendChatMessage(store: Store, chatId: string, user: ChatUser, text: string,
                           msgTime: int, lastTime: int): (r: Store)
    ensures r.chats.Keys == store.chats.Keys + {chatId}
    ensures r.chats[chatId].lastMessage == Some(NewMessage(user, text, lastTime))
    ensures chatId in store.chats ==>
      var before, after := store.chats[chatId], r.chats[chatId];
      after.id == before.id && after.participants == before.participants && after.createdAt == before.createdAt
    ensures chatId !in store.chats ==> r.chats[chatId] == Chat(None, None, None, Some(NewMessage(user, text, lastTime)))
    ensures forall k :: k in store.chats && k != chatId ==> r.chats[k] == store.chats[k]
    ensures r.messages.Keys == store.messages.Keys + {chatId}
    ensures r.messages[chatId] == (if chatId in store.messages then store.messages[chatId] else []) + [NewMessage(user, text, msgTime)]
    ensures forall k :: k in store.messages && k != chatId ==> r.messages[k] == store.messages[k]
  {
    var added := AddMessage(store, chatId, NewMessage(user, text, msgTime));
    SetLastMessage(added, chatId, NewMessage(user, text, lastTime))
  }

  /** After both writes the chat's `lastMessage` is the stored message except
      for its timestamp, which is the second write's server time. */
  lemma LastMessageIsSent(store: Store, chatId: string, user: ChatUser, text: string, msgTime: int, lastTime: int)
    ensures var r := SendChatMessage(store, chatId, user, text, msgTime, lastTime);
      var thread := r.messages[chatId];
      && thread != []
      && r.chats[chatId].lastMessage == Some(thread[|thread| - 1].(timestamp := lastTime))
  {
  }

  /** A new chat is listed for both users, each seeing the other's name;
      when a user opens a chat with themself it is listed as "Unknown User". */
  lemma NewChatListedForBoth(user1Id: string, user2Id: string, user2Name: string, user1Name: string, now: int)
    ensures var c := NewChat(ChatId(user1Id, user2Id), user1Id, user2Id, user2Name, user1Name, now);
      && Involves(user1Id, c) && Involves(user2Id, c)
      && (user1Id != user2Id ==> DisplayName(user1Id, c) == user2Name && DisplayName(user2Id, c) == user1Name)
      && (user1Id == user2Id ==> DisplayName(user1Id, c) == UnknownUser)
  {
    var c := NewChat(ChatId(user1Id, user2Id), user1Id, user2Id, user2Name, user1Name, now);
    assert Participant(user1Id, user1Name) in c.participants.value;
    assert Participant(user2Id, user2Name) in c.participants.value;
  }

  /** Sending a message to an existing chat changes neither who sees it in
      their listing nor the name it is listed under. */
  lemma SendKeepsListing(store: Store, chatId: string, user: ChatUser, text: string,
                         msgTime: int, lastTime: int, userId: string)
    requires chatId in store.chats
    ensures var after := SendChatMessage(store, chatId, user, text, msgTime, lastTime).chats[chatId];
      && (Involves(userId, after) <==> Involves(userId, store.chats[chatId]))
      && DisplayName(userId, after) == DisplayName(userId, store.chats[chatId])
  {
  }
}

=== FILE: jsstrings.dfy ===
/** The JavaScript string built-ins the application relies on, modelled on
    strings of characters: `String.prototype.trim`, `split`/`join` on a
    one-character separator, the global `parseInt` without a radix, and the
    ordering `Array.prototype.sort` uses when no comparator is given. */
module JsStrings {
  import opened Wrappers

  /** The ECMAScript WhiteSpace and LineTerminator code points (sections 12.2
      and 12.3 of ECMA-262): TAB, VT, FF, ZWNBSP, the Unicode "Zs" spaces, LF,
      CR, LS and PS. `trim` strips exactly these, and `parseInt` skips them. */
  predicate IsJsSpace(c: char) {
    || c == '\t' || c == '\n' || c == '\U{000B}' || c == '\U{000C}' || c == '\r'
    || c == ' ' || c == '\U{00A0}' || c == '\U{1680}' || ('\U{2000}' <= c <= '\U{200A}')
    || c == '\U{2028}' || c == '\U{2029}' || c == '\U{202F}' || c == '\U{205F}'
    || c == '\U{3000}' || c == '\U{FEFF}'
  }

  // ---------------------------------------------------------------- trimming

  /** Drops the leading white space: the result is a suffix of `s`, everything
      cut off is white space, and the result does not start with white space. */
  function TrimStart(s: string): (r: string)
    ensures |r| <= |s| && r == s[|s| - |r|..]
    ensures forall k :: 0 <= k < |s| - |r| ==> IsJsSpace(s[k])
    ensures r == [] || !IsJsSpace(r[0])
  {
    if s != [] && IsJsSpace(s[0]) then TrimStart(s[1..]) else s
  }

  /** Neither starts nor ends with white space. */
  predicate IsTrimmed(s: string) {
    s == [] || (!IsJsSpace(s[0]) && !IsJsSpace(s[|s| - 1]))
  }

  /** `s.trim()`: leading white space is dropped one character at a time,
      then trailing white space. */
  function Trim(s: string): (r: string)
    ensures IsTrimmed(r)
    ensures IsTrimmed(s) ==> r == s
    ensures r == [] <==> forall k :: 0 <= k < |s| ==> IsJsSpace(s[k])
    decreases |s|
  {
    if s != [] && IsJsSpace(s[0]) then
      var r := Trim(s[1..]);
      assert forall k :: 1 <= k < |s| ==> s[k] == s[1..][k - 1];
      r
    else if s != [] && IsJsSpace(s[|s| - 1]) then
      var r := Trim(s[..|s| - 1]);
      assert forall k :: 0 <= k < |s| - 1 ==> s[k] == s[..|s| - 1][k];
      r
    else
      s
  }

  /** `s[i..j]` is `s` with only white space cut off at either end. */
  predicate TrimmedAt(s: string, i: int, j: int) {
    && 0 <= i <= j <= |s|
    && (forall k :: 0 <= k < i ==> IsJsSpace(s[k]))
    && (forall k :: j <= k < |s| ==> IsJsSpace(s[k]))
  }

  /** `s.trim()` is a slice of `s` with only white space cut off at either
      end: together with `Trim`'s own contract, the leading and trailing
      white space and nothing else. */
  lemma {:induction false} TrimIsSlice(s: string)
    ensures exists i, j :: TrimmedAt(s, i, j) && Trim(s) == s[i..j]
    decreases |s|
  {
    if s != [] && IsJsSpace(s[0]) {
      var t := s[1..];
      TrimIsSlice(t);
      var i, j :| TrimmedAt(t, i, j) && Trim(t) == t[i..j];
      SliceAfterSpace(s, i, j);
    } else if s != [] && IsJsSpace(s[|s| - 1]) {
      var t := s[..|s| - 1];
      TrimIsSlice(t);
      var i, j :| TrimmedAt(t, i, j) && Trim(t) == t[i..j];
      SliceBeforeSpace(s, i, j);
    } else {
      assert TrimmedAt(s, 0, |s|) && s[0..|s|] == s;
    }
  }

  /** A white-space-bounded slice of `s[1..]` is one of `s` when `s` starts
      with white space. */
  lemma SliceAfterSpace(s: string, i: int, j: int)
    requires s != [] && IsJsSpace(s[0]) && TrimmedAt(s[1..], i, j)
    ensures TrimmedAt(s, i + 1, j + 1) && s[1..][i..j] == s[i + 1..j + 1]
  {
    var t := s[1..];
    forall k | 0 < k < i + 1 ensures IsJsSpace(s[k]) {
      assert s[k] == t[k - 1];
    }
    forall k | j + 1 <= k < |s| ensures IsJsSpace(s[k]) {
      assert s[k] == t[k - 1];
    }
  }

  /** A white-space-bounded slice of `s` without its last character is one of
      `s` when `s` ends with white space. */
  lemma SliceBeforeSpace(s: string, i: int, j: int)
    requires s != [] && IsJsSpace(s[|s| - 1]) && TrimmedAt(s[..|s| - 1], i, j)
    ensures TrimmedAt(s, i, j) && s[..|s| - 1][i..j] == s[i..j]
  {
    var t := s[..|s| - 1];
    forall k | 0 <= k < i ensures IsJsSpace(s[k]) {
      assert s[k] == t[k];
    }
    forall k | j <= k < |s| - 1 ensures IsJsSpace(s[k]) {
      assert s[k] == t[k];
    }
  }

  /** Trimming twice is trimming once. */
  lemma TrimIdempotent(s: string)
    ensures Trim(Trim(s)) == Trim(s)
  {
  }

  // ------------------------------------------------------- splitting, joining

  /** The number of occurrences of `c` in `s`. */
  function Count(s: string, c: char): nat {
    if s == [] then 0 else (if s[0] == c then 1 else 0) + Count(s[1..], c)
  }

  /** `xs.join(sep)` for a one-character separator. */
  function Join(xs: seq<string>, sep: char): string {
    if xs == [] then ""
    else if |xs| == 1 then xs[0]
    else xs[0] + [sep] + Join(xs[1..], sep)
  }

  /** `s.split(sep)` for a one-character separator: one piece more than there
      are separators, no piece holds the separator, empty pieces are kept, and
      joining the pieces back gives `s`. */
  function Split(s: string, sep: char): (r: seq<string>)
    ensures |r| == Count(s, sep) + 1
    ensures forall piece :: piece in r ==> sep !in piece
    ensures Join(r, sep) == s
  {
    if s == [] then [""]
    else
      var rest := Split(s[1..], sep);
      if s[0] == sep then
        assert ([""] + rest)[1..] == rest;
        [""] + rest
      else
        var r := [[s[0]] + rest[0]] + rest[1..];
        assert sep !in [s[0]] + rest[0] by {
          assert rest[0] in rest;
        }
        assert r[1..] == rest[1..];
        assert Join(r, sep) == [s[0]] + Join(rest, sep) by {
          if |rest| > 1 {
            assert Join(rest, sep) == rest[0] + [sep] + Join(rest[1..], sep);
          }
        }
        assert s == [s[0]] + s[1..];
        r
  }

  /** A piece without the separator splits into itself. */
  lemma {:induction false} SplitPiece(x: string, sep: char)
    requires sep !in x
    ensures Split(x, sep) == [x]
  {
    if x != [] {
      SplitPiece(x[1..], sep);
      assert x == [x[0]] + x[1..];
    }
  }

  /** A leading separator-free piece followed by the separator splits off as
      the first piece. */
  lemma {:induction false} SplitAfterPiece(x: string, sep: char, t: string)
    requires sep !in x
    ensures Split(x + [sep] + t, sep) == [x] + Split(t, sep)
  {
    var s := x + [sep] + t;
    if x == [] {
      assert s[1..] == t;
    } else {
      assert s[1..] == x[1..] + [sep] + t;
      SplitAfterPiece(x[1..], sep, t);
      assert x == [x[0]] + x[1..];
    }
  }

  /** Splitting undoes joining, when no piece holds the separator. */
  lemma {:induction false} SplitJoin(xs: seq<string>, sep: char)
    requires |xs| >= 1
    requires forall x :: x in xs ==> sep !in x
    ensures Split(Join(xs, sep), sep) == xs
  {
    if |xs| == 1 {
      SplitPiece(xs[0], sep);
    } else {
      SplitJoin(xs[1..], sep);
      SplitAfterPiece(xs[0], sep, Join(xs[1..], sep));
      assert xs == [xs[0]] + xs[1..];
    }
  }

  /** Trimming never introduces a character. */
  lemma TrimKeepsOut(s: string, c: char)
    requires c !in s
    ensures c !in Trim(s)
  {
    TrimIsSlice(s);
    var i, j :| TrimmedAt(s, i, j) && Trim(s) == s[i..j];
    assert forall x :: x in s[i..j] ==> x in s;
  }

  /** `text.split(sep).map((x) => x.trim())`: one entry per piece, each
      trimmed and free of the separator. */
  function SplitTrim(text: string, sep: char): (r: seq<string>)
    ensures |r| == Count(text, sep) + 1
    ensures forall e :: e in r ==> IsTrimmed(e) && sep !in e
    ensures |r| == |Split(text, sep)| && forall i :: 0 <= i < |r| ==> r[i] == Trim(Split(text, sep)[i])
  {
    var pieces := Split(text, sep);
    TrimAllKeepsOut(pieces, sep);
    TrimAll(pieces)
  }

  /** Trimming every piece keeps every piece trimmed and free of `sep`. */
  lemma TrimAllKeepsOut(pieces: seq<string>, sep: char)
    requires forall p :: p in pieces ==> sep !in p
    ensures forall e :: e in TrimAll(pieces) ==> IsTrimmed(e) && sep !in e
  {
    var r := TrimAll(pieces);
    forall e | e in r ensures IsTrimmed(e) && sep !in e {
      var i :| 0 <= i < |r| && r[i] == e;
      assert pieces[i] in pieces;
      TrimKeepsOut(pieces[i], sep);
    }
  }

  /** `pieces.map((i) => i.trim())`. */
  function TrimAll(pieces: seq<string>): (r: seq<string>)
    ensures |r| == |pieces|
    ensures forall i :: 0 <= i < |r| ==> r[i] == Trim(pieces[i])
  {
    if pieces == [] then [] else [Trim(pieces[0])] + TrimAll(pieces[1..])
  }

  /** Trimming goes piece by piece. */
  lemma {:induction false} TrimAllAppend(a: seq<string>, b: seq<string>)
    ensures TrimAll(a + b) == TrimAll(a) + TrimAll(b)
  {
    if a == [] {
      assert a + b == b;
    } else {
      assert (a + b)[1..] == a[1..] + b;
      TrimAllAppend(a[1..], b);
    }
  }

  /** Entries that are already trimmed and free of the separator are read
      back from their join. */
  lemma SplitTrimJoin(entries: seq<string>, sep: char)
    requires |entries| >= 1
    requires forall e :: e in entries ==> IsTrimmed(e) && sep !in e
    ensures SplitTrim(Join(entries, sep), sep) == entries
  {
    SplitJoin(entries, sep);
    assert SplitTrim(Join(entries, sep), sep) == TrimAll(entries);
    TrimAllTrimmed(entries);
  }

  /** Trimming pieces that are already trimmed changes nothing. */
  lemma TrimAllTrimmed(pieces: seq<string>)
    requires forall p :: p in pieces ==> IsTrimmed(p)
    ensures TrimAll(pieces) == pieces
  {
    var r := TrimAll(pieces);
    forall i | 0 <= i < |pieces| ensures r[i] == pieces[i] {
      assert pieces[i] in pieces;
    }
  }

  // ------------------------------------------------------------------ parseInt

  /** The value of a character as a digit in radix up to 36; 36 for a
      character that is no digit at all. */
  function DigitValue(c: char): nat {
    if '0' <= c <= '9' then (c as int) - ('0' as int)
    else if 'a' <= c <= 'z' then (c as int) - ('a' as int) + 10
    else if 'A' <= c <= 'Z' then (c as int) - ('A' as int) + 10
    else 36
  }

  predicate IsDigit(c: char, radix: nat) {
    DigitValue(c) < radix
  }

  /** The longest prefix of `s` made of digits of the radix. */
  function DigitPrefix(s: string, radix: nat): (r: string)
    ensures |r| <= |s| && r == s[..|r|]
    ensures forall k :: 0 <= k < |r| ==> IsDigit(r[k], radix)
    ensures |r| == |s| || !IsDigit(s[|r|], radix)
  {
    if s != [] && IsDigit(s[0], radix) then
      assert s == [s[0]] + s[1..];
      [s[0]] + DigitPrefix(s[1..], radix)
    else []
  }

  /** The value of a digit string, most significant digit first. */
  function DigitsValue(ds: string, radix: nat): nat {
    if ds == [] then 0
    else DigitsValue(ds[..|ds| - 1], radix) * radix + DigitValue(ds[|ds| - 1])
  }

  /** The unsigned part of `parseInt`: a `0x`/`0X` prefix selects radix 16,
      otherwise radix 10; then the longest run of digits is read. No digits
      gives `None`. */
  function ParseUnsigned(u: string): Option<nat> {
    var hex := |u| >= 2 && u[0] == '0' && (u[1] == 'x' || u[1] == 'X');
    var radix := if hex then 16 else 10;
    var digits := DigitPrefix(if hex then u[2..] else u, radix);
    if digits == [] then None else Some(DigitsValue(digits, radix))
  }

  /** `parseInt(s)` with no radix (section 19.2.5 of ECMA-262): skip leading
      white space, take an optional sign, then read the unsigned part. No
      digits gives `NaN`, here `None`. */
  function ParseInt(s: string): (r: Option<int>)
    ensures (forall k :: 0 <= k < |s| ==> IsJsSpace(s[k])) ==> r.None?
    ensures r.Some? ==> var t := TrimStart(s);
      t != [] && (t[0] == '-' || t[0] == '+' || IsDigit(t[0], 10))
    ensures r.Some? && r.value < 0 ==> var t := TrimStart(s); t != [] && t[0] == '-'
  {
    var t := TrimStart(s);
    var negative := t != [] && t[0] == '-';
    var unsigned := if t != [] && (t[0] == '-' || t[0] == '+') then t[1..] else t;
    match ParseUnsigned(unsigned)
    case None => None
    case Some(v) => Some(if negative then -(v as int) else v as int)
  }

  /** The decimal digit for `d`. */
  function DigitChar(d: nat): char
    requires d < 10
  {
    (('0' as int) + d) as char
  }

  /** The decimal numeral of a natural number, without leading zeros. */
  function NatToString(n: nat): (r: string)
    ensures |r| >= 1
    ensures forall k :: 0 <= k < |r| ==> '0' <= r[k] <= '9'
  {
    if n < 10 then [DigitChar(n)] else NatToString(n / 10) + [DigitChar(n % 10)]
  }

  /** `String(n)` for an integer `n`. */
  function IntToString(n: int): string {
    if n < 0 then "-" + NatToString(-n) else NatToString(n)
  }

  lemma {:induction false} NatToStringValue(n: nat)
    ensures DigitsValue(NatToString(n), 10) == n
  {
    var r := NatToString(n);
    if n >= 10 {
      NatToStringValue(n / 10);
      assert r[..|r| - 1] == NatToString(n / 10);
    }
  }

  /** A run of digits followed by a non-digit is read up to the non-digit. */
  lemma {:induction false} DigitPrefixOfDigits(ds: string, tail: string, radix: nat)
    requires forall k :: 0 <= k < |ds| ==> IsDigit(ds[k], radix)
    requires tail == [] || !IsDigit(tail[0], radix)
    ensures DigitPrefix(ds + tail, radix) == ds
  {
    if ds != [] {
      assert (ds + tail)[1..] == ds[1..] + tail;
      DigitPrefixOfDigits(ds[1..], tail, radix);
    } else {
      assert ds + tail == tail;
    }
  }

  /** The unsigned part reads back a numeral followed by text that cannot
      continue it. */
  lemma ParseUnsignedOfNumeral(m: nat, tail: string)
    requires tail == [] || (!IsDigit(tail[0], 10) && tail[0] != 'x' && tail[0] != 'X')
    ensures ParseUnsigned(NatToString(m) + tail) == Some(m)
  {
    var digits := NatToString(m);
    var u := digits + tail;
    assert !(|u| >= 2 && u[0] == '0' && (u[1] == 'x' || u[1] == 'X')) by {
      if |digits| >= 2 {
        assert u[1] == digits[1];
      } else if |u| >= 2 {
        assert u[1] == tail[0];
      }
    }
    DigitPrefixOfDigits(digits, tail, 10);
    NatToStringValue(m);
  }

  /** Without a leading sign or white space, `parseInt` is its unsigned part. */
  lemma ParseIntDigitFirst(u: string, v: nat)
    requires u != [] && '0' <= u[0] <= '9'
    requires ParseUnsigned(u) == Some(v)
    ensures ParseInt(u) == Some(v)
  {
    assert !IsJsSpace(u[0]);
    assert TrimStart(u) == u;
  }

  /** A leading minus sign negates the unsigned part. */
  lemma ParseIntMinus(u: string, v: nat)
    requires ParseUnsigned(u) == Some(v)
    ensures ParseInt("-" + u) == Some(-(v as int))
  {
    var s := "-" + u;
    assert !IsJsSpace(s[0]);
    assert TrimStart(s) == s;
    assert s[1..] == u;
  }

  /** `parseInt` reads back the numeral of an integer, also when it is
      followed by text that cannot continue the number ("25 years"). */
  lemma ParseIntOfNumeral(n: int, tail: string)
    requires tail == [] || (!IsDigit(tail[0], 10) && tail[0] != 'x' && tail[0] != 'X')
    ensures ParseInt(IntToString(n) + tail) == Some(n)
  {
    if n < 0 {
      ParseIntOfNegative(-n, tail);
    } else {
      ParseIntOfNatural(n, tail);
    }
  }

  lemma ParseIntOfNatural(m: nat, tail: string)
    requires tail == [] || (!IsDigit(tail[0], 10) && tail[0] != 'x' && tail[0] != 'X')
    ensures ParseInt(NatToString(m) + tail) == Some(m)
  {
    var u := NatToString(m) + tail;
    ParseUnsignedOfNumeral(m, tail);
    assert u[0] == NatToString(m)[0];
    ParseIntDigitFirst(u, m);
  }

  lemma ParseIntOfNegative(m: nat, tail: string)
    requires m > 0
    requires tail == [] || (!IsDigit(tail[0], 10) && tail[0] != 'x' && tail[0] != 'X')
    ensures ParseInt(IntToString(-(m as int)) + tail) == Some(-(m as int))
  {
    var u := NatToString(m) + tail;
    ParseUnsignedOfNumeral(m, tail);
    assert IntToString(-(m as int)) + tail == "-" + u;
    ParseIntMinus(u, m);
  }

  /** The round trip `parseInt(String(n)) == n`. */
  lemma ParseIntRoundTrip(n: int)
    ensures ParseInt(IntToString(n)) == Some(n)
  {
    ParseIntOfNumeral(n, "");
    assert IntToString(n) + "" == IntToString(n);
  }

  // ----------------------------------------------------------------- ordering

  /** The order `Array.prototype.sort` uses for strings without a comparator:
      `a` comes no later than `b` unless `b < a`, that is unless `b` is a proper
      prefix of `a` or `b` is smaller at the first position where they differ. */
  predicate LessEq(a: string, b: string): (r: bool)
    ensures r <==> a <= b || FirstSmaller(a, b)
  {
    if a == [] then true
    else if b == [] then false
    else if a[0] != b[0] then FirstSmallerHead(a, b); a[0] < b[0]
    else FirstSmallerTail(a, b); LessEq(a[1..], b[1..])
  }

  /** `a` is smaller than `b` at the first position where the two differ. */
  ghost predicate FirstSmaller(a: string, b: string) {
    exists i :: 0 <= i < |a| && i < |b| && a[..i] == b[..i] && a[i] < b[i]
  }

  lemma FirstSmallerHead(a: string, b: string)
    requires a != [] && b != [] && a[0] != b[0]
    ensures FirstSmaller(a, b) <==> a[0] < b[0]
  {
    if a[0] < b[0] {
      assert a[..0] == b[..0];
    }
  }

  lemma FirstSmallerTail(a: string, b: string)
    requires a != [] && b != [] && a[0] == b[0]
    ensures FirstSmaller(a, b) <==> FirstSmaller(a[1..], b[1..])
    ensures a <= b <==> a[1..] <= b[1..]
  {
    var a', b' := a[1..], b[1..];
    if FirstSmaller(a, b) {
      var i :| 0 <= i < |a| && i < |b| && a[..i] == b[..i] && a[i] < b[i];
      assert i != 0;
      assert a'[..i - 1] == a[..i][1..] && b'[..i - 1] == b[..i][1..];
      assert a'[i - 1] == a[i] && b'[i - 1] == b[i];
    }
    if FirstSmaller(a', b') {
      var i :| 0 <= i < |a'| && i < |b'| && a'[..i] == b'[..i] && a'[i] < b'[i];
      assert a[..i + 1] == [a[0]] + a'[..i] && b[..i + 1] == [b[0]] + b'[..i];
      assert a[i + 1] == a'[i] && b[i + 1] == b'[i];
    }
    assert a == [a[0]] + a' && b == [b[0]] + b';
  }

  /** A prefix comes first: "ab" sorts before "abc". */
  lemma {:induction false} LessEqPrefix(a: string, b: string)
    requires a <= b
    ensures LessEq(a, b)
  {
    if a != [] {
      assert a[1..] <= b[1..];
      LessEqPrefix(a[1..], b[1..]);
    }
  }

  /** Any two strings are ordered one way or the other. */
  lemma {:induction false} LessEqTotal(a: string, b: string)
    ensures LessEq(a, b) || LessEq(b, a)
  {
    if a != [] && b != [] && a[0] == b[0] {
      LessEqTotal(a[1..], b[1..]);
    }
  }

  /** Strings ordered both ways are equal. */
  lemma {:induction false} LessEqAntisymmetric(a: string, b: string)
    requires LessEq(a, b) && LessEq(b, a)
    ensures a == b
  {
    if a != [] && b != [] {
      LessEqAntisymmetric(a[1..], b[1..]);
      assert a == [a[0]] + a[1..] && b == [b[0]] + b[1..];
    }
  }
}

=== FILE: matching.dfy ===
/** The matching engine of `src/lib/matchingService.js`: the fetched pool is
    filtered by the requester's age range and distance limit, every survivor
    gets a `compatibility` score, and the result is sorted by that score,
    highest first, with ties kept in pool order. */
module Matching {
  import opened Wrappers
  import opened Seqs

  /** A number-valued field as JavaScript reads it: absent (`undefined`),
      `null`, `NaN`, or a number. */
  datatype Num = Undefined | Null | NaN | Int(value: int)

  /** What the `location` field holds: coordinates from the browser, or the
      free text the profile page stores. A missing or `null` location is `None`. */
  datatype Place = Coordinates(latitude: real, longitude: real) | Text(text: string)

  /** `ageRange`; `null?.min` and a missing range both read as undefined. */
  datatype AgeRange = AgeRange(min: Num, max: Num)

  /** A user document as the pool and the requester's profile carry it. */
  datatype UserProfile = UserProfile(
    id: string,
    age: Num,
    interests: Option<seq<string>>,
    preferredActivities: Option<seq<string>>,
    availableDays: Option<seq<string>>,
    ageRange: Option<AgeRange>,
    maxDistance: Num,
    location: Option<Place>)

  /** A pool record with the `compatibility` field the pipeline adds. */
  datatype Match = Match(user: UserProfile, compatibility: real)

  /** `calculateDistance(a.latitude, a.longitude, b.latitude, b.longitude)` of
      the location service, which is not part of this model: any function of
      the two places, `None` standing for `NaN` (as for a text place, whose
      coordinates are undefined). */
  type Distance = (Place, Place) -> Option<real>

  const DefaultAge := 25
  const DefaultMaxDistance := 25

  const InterestWeight := 50
  const ActivityWeight := 40
  const DayWeight := 10
  const SameAgeBonus: real := 30.0

  /** `x || d` on a number: `undefined`, `null`, `NaN` and `0` are all falsy. */
  function NumberOr(x: Num, d: int): (r: int)
    ensures x.Int? && x.value != 0 ==> r == x.value
    ensures x.Undefined? || x.Null? || x.NaN? || x == Int(0) ==> r == d
  {
    if x.Int? && x.value != 0 then x.value else d
  }

  /** JavaScript's `Number(x)` inside `-`, `>=` and `<=`: `null` becomes 0,
      `undefined` and `NaN` become `NaN` (here `None`). */
  function ToNumber(x: Num): (r: Option<int>)
    ensures r.None? <==> x.Undefined? || x.NaN?
    ensures x.Null? ==> r == Some(0)
    ensures x.Int? ==> r == Some(x.value)
  {
    match x
    case Int(n) => Some(n)
    case Null => Some(0)
    case _ => None
  }

  /** `xs || []` on a list. */
  function ListOr(xs: Option<seq<string>>): seq<string> {
    xs.GetOr([])
  }

  /** An object field is truthy: coordinates always, text when not empty. */
  predicate Truthy(p: Option<Place>) {
    p.Some? && (p.value.Coordinates? || p.value.text != "")
  }

  // ------------------------------------------------------------------ gates

  /** `x >= b` and `x <= b`: false when `b` converts to `NaN`. */
  predicate AtLeast(x: int, b: Num) {
    ToNumber(b).Some? && x >= ToNumber(b).value
  }

  predicate AtMost(x: int, b: Num) {
    ToNumber(b).Some? && x <= ToNumber(b).value
  }

  /** The bounds `userProfile.ageRange?.min` and `?.max` read. */
  function MinBound(profile: UserProfile): Num {
    if profile.ageRange.Some? then profile.ageRange.value.min else Undefined
  }

  function MaxBound(profile: UserProfile): Num {
    if profile.ageRange.Some? then profile.ageRange.value.max else Undefined
  }

  /** The age gate: the candidate's `age || 25` lies within the requester's
      `ageRange`. A passing candidate's requester has a range whose bounds
      are numbers or `null` (read as 0), and the age lies between them; and
      every age between such bounds passes. */
  predicate InAgeRange(profile: UserProfile, candidate: UserProfile)
    ensures InAgeRange(profile, candidate) ==> profile.ageRange.Some?
    ensures InAgeRange(profile, candidate) <==>
      && ToNumber(MinBound(profile)).Some? && ToNumber(MaxBound(profile)).Some?
      && ToNumber(MinBound(profile)).value <= NumberOr(candidate.age, DefaultAge) <= ToNumber(MaxBound(profile)).value
  {
    var age := NumberOr(candidate.age, DefaultAge);
    AtLeast(age, MinBound(profile)) && AtMost(age, MaxBound(profile))
  }

  /** The distance gate: only when the `location` argument and the candidate's
      location are both truthy, the distance must not exceed
      `maxDistance || 25`; a `NaN` distance excludes the candidate. */
  predicate WithinDistance(profile: UserProfile, location: Option<Place>, dist: Distance, candidate: UserProfile)
    ensures !Truthy(location) || !Truthy(candidate.location) ==> WithinDistance(profile, location, dist, candidate)
    ensures Truthy(location) && Truthy(candidate.location) && WithinDistance(profile, location, dist, candidate) ==>
      dist(location.value, candidate.location.value).Some?
  {
    if Truthy(location) && Truthy(candidate.location) then
      var d := dist(location.value, candidate.location.value);
      d.Some? && d.value <= NumberOr(profile.maxDistance, DefaultMaxDistance) as real
    else
      true
  }

  predicate Eligible(profile: UserProfile, location: Option<Place>, dist: Distance, candidate: UserProfile) {
    InAgeRange(profile, candidate) && WithinDistance(profile, location, dist, candidate)
  }

  /** The pool after `.filter(...)`: exactly the eligible records, in pool order. */
  function Survivors(profile: UserProfile, location: Option<Place>, dist: Distance, pool: seq<UserProfile>): (r: seq<UserProfile>)
    ensures |r| <= |pool|
    ensures forall u :: u in r <==> u in pool && Eligible(profile, location, dist, u)
  {
    Filter(u => Eligible(profile, location, dist, u), pool)
  }

  /** Falsy ages are gated as 25: an undefined, `null`, `NaN` or zero age
      passes exactly when 25 would. */
  lemma AgeGateBounds(profile: UserProfile, candidate: UserProfile)
    requires !candidate.age.Int? || candidate.age.value == 0
    ensures InAgeRange(profile, candidate) <==> InAgeRange(profile, candidate.(age := Int(DefaultAge)))
  {
  }

  /** A `null` lower bound acts as 0 and a missing range admits nobody. */
  lemma AgeGateNullAndMissing(profile: UserProfile, candidate: UserProfile, hi: int)
    ensures profile.ageRange == Some(AgeRange(Null, Int(hi))) ==>
      (InAgeRange(profile, candidate) <==> 0 <= NumberOr(candidate.age, DefaultAge) <= hi)
    ensures profile.ageRange.None? ==> !InAgeRange(profile, candidate)
  {
  }

  /** Without two truthy locations the distance gate never excludes anyone;
      with both it excludes exactly the candidates farther away than
      `maxDistance || 25`, or at a `NaN` distance. */
  lemma DistanceGateCases(profile: UserProfile, location: Option<Place>, dist: Distance, candidate: UserProfile)
    ensures location.None? || candidate.location.None? ==> WithinDistance(profile, location, dist, candidate)
    ensures candidate.location == Some(Text("")) ==> WithinDistance(profile, location, dist, candidate)
    ensures Truthy(location) && Truthy(candidate.location) ==>
      var d := dist(location.value, candidate.location.value);
      var limit := if profile.maxDistance.Int? && profile.maxDistance.value != 0 then profile.maxDistance.value else 25;
      (!WithinDistance(profile, location, dist, candidate) <==> d.None? || d.value > limit as real)
  {
  }

  // ---------------------------------------------------------------- scoring

  /** The number of entries of `mine` that occur in `theirs`: duplicates in
      `mine` count each time. */
  function Overlap(mine: seq<string>, theirs: seq<string>): (n: nat)
    ensures n <= |mine|
    ensures theirs == [] ==> n == 0
  {
    |Filter(x => x in theirs, mine)|
  }

  /** The positions of `mine` whose entry occurs in `theirs`. */
  function SharedPositions(mine: seq<string>, theirs: seq<string>): set<nat> {
    set i: nat | i < |mine| && mine[i] in theirs
  }

  /** The overlap counts positions, not distinct values. */
  lemma {:induction false} OverlapCountsPositions(mine: seq<string>, theirs: seq<string>)
    ensures Overlap(mine, theirs) == |SharedPositions(mine, theirs)|
  {
    if mine != [] {
      var front, last := mine[..|mine| - 1], mine[|mine| - 1];
      assert mine == front + [last];
      OverlapCountsPositions(front, theirs);
      OverlapAppend(front, last, theirs);
      SharedPositionsAppend(front, last, theirs);
    }
  }

  /** The shared positions of a list with one more entry. */
  lemma SharedPositionsAppend(front: seq<string>, last: string, theirs: seq<string>)
    ensures |SharedPositions(front + [last], theirs)|
         == |SharedPositions(front, theirs)| + (if last in theirs then 1 else 0)
  {
    var mine := front + [last];
    var before := SharedPositions(front, theirs);
    var after := SharedPositions(mine, theirs);
    var extra: set<nat> := if last in theirs then {|front|} else {};
    forall i: nat ensures i in after <==> i in before + extra {
      if i < |front| {
        assert mine[i] == front[i];
      }
    }
    assert after == before + extra;
    assert |front| !in before;
  }

  /** Appending one entry raises the overlap by one exactly when the entry
      occurs in the other list. */
  lemma OverlapAppend(mine: seq<string>, x: string, theirs: seq<string>)
    ensures Overlap(mine + [x], theirs) == Overlap(mine, theirs) + (if x in theirs then 1 else 0)
  {
    FilterAppend(y => y in theirs, mine, [x]);
    FilterSingle(y => y in theirs, x);
  }

  /** On a duplicate-free list the overlap is the size of the set intersection. */
  lemma OverlapOfDistinct(mine: seq<string>, theirs: seq<string>)
    requires NoDup(mine)
    ensures Overlap(mine, theirs) == |Elems(mine) * Elems(theirs)|
  {
    var common := Filter(x => x in theirs, mine);
    FilterNoDup(x => x in theirs, mine);
    NoDupCard(common);
    assert Elems(common) == Elems(mine) * Elems(theirs);
  }

  /** The absolute age difference. */
  function AgeGap(a: int, b: int): nat {
    if a >= b then a - b else b - a
  }

  /** The age term: 30 for equal ages, otherwise `max(1, 30 / gap)`. */
  function AgeTerm(gap: nat): (r: real)
    ensures 1.0 <= r <= 30.0
  {
    if gap != 0 then
      var q := SameAgeBonus / gap as real;
      assert q <= 30.0;
      if q > 1.0 then q else 1.0
    else
      SameAgeBonus
  }

  /** A wider age gap never earns more. */
  lemma AgeTermAntitone(g1: nat, g2: nat)
    requires g1 <= g2
    ensures AgeTerm(g1) >= AgeTerm(g2)
  {
    if g1 != 0 {
      var a, b := g1 as real, g2 as real;
      assert 30.0 / a >= 30.0 / b by {
        assert (30.0 / b) * b == 30.0;
        assert (30.0 / a) * a == 30.0;
        assert (30.0 / b) * a <= (30.0 / b) * b;
      }
    }
  }

  /** The age term does not depend on which profile is the requester. */
  lemma AgeTermSymmetric(a: int, b: int)
    ensures AgeTerm(AgeGap(a, b)) == AgeTerm(AgeGap(b, a))
  {
  }

  /** The worked values: equal ages earn 30, five years apart 6, one year
      apart 30 in either order. */
  lemma AgeTermExamples()
    ensures AgeTerm(AgeGap(30, 30)) == 30.0
    ensures AgeTerm(AgeGap(30, 35)) == 6.0
    ensures AgeTerm(AgeGap(30, 29)) == AgeTerm(AgeGap(29, 30)) == 30.0
    ensures AgeTerm(AgeGap(20, 80)) == 1.0
  {
  }

  /** Both ages convert to numbers (`null` to 0), so the score is not `NaN`. */
  predicate Scorable(profile: UserProfile, candidate: UserProfile) {
    ToNumber(profile.age).Some? && ToNumber(candidate.age).Some?
  }

  /** `calculateCompatibility(user1, user2)`: weighted overlaps of interests,
      activities and days, plus the age term of `Math.abs(user1.age - user2.age)`. */
  function Score(profile: UserProfile, candidate: UserProfile): (r: real)
    requires Scorable(profile, candidate)
    ensures r >= 1.0
  {
    var common :=
      InterestWeight * Overlap(ListOr(profile.interests), ListOr(candidate.interests))
      + ActivityWeight * Overlap(ListOr(profile.preferredActivities), ListOr(candidate.preferredActivities))
      + DayWeight * Overlap(ListOr(profile.availableDays), ListOr(candidate.availableDays));
    common as real + AgeTerm(AgeGap(ToNumber(profile.age).value, ToNumber(candidate.age).value))
  }

  /** One more requester interest that the candidate shares adds exactly 50. */
  lemma ScoreSharedInterest(profile: UserProfile, candidate: UserProfile, x: string)
    requires Scorable(profile, candidate)
    requires x in ListOr(candidate.interests)
    ensures Score(profile.(interests := Some(ListOr(profile.interests) + [x])), candidate)
         == Score(profile, candidate) + 50.0
  {
    OverlapAppend(ListOr(profile.interests), x, ListOr(candidate.interests));
  }

  /** One more requester activity that the candidate shares adds exactly 40. */
  lemma ScoreSharedActivity(profile: UserProfile, candidate: UserProfile, x: string)
    requires Scorable(profile, candidate)
    requires x in ListOr(candidate.preferredActivities)
    ensures Score(profile.(preferredActivities := Some(ListOr(profile.preferredActivities) + [x])), candidate)
         == Score(profile, candidate) + 40.0
  {
    OverlapAppend(ListOr(profile.preferredActivities), x, ListOr(candidate.preferredActivities));
  }

  /** One more requester day that the candidate shares adds exactly 10. */
  lemma ScoreSharedDay(profile: UserProfile, candidate: UserProfile, x: string)
    requires Scorable(profile, candidate)
    requires x in ListOr(candidate.availableDays)
    ensures Score(profile.(availableDays := Some(ListOr(profile.availableDays) + [x])), candidate)
         == Score(profile, candidate) + 10.0
  {
    OverlapAppend(ListOr(profile.availableDays), x, ListOr(candidate.availableDays));
  }

  /** All three lists of a profile are free of duplicates. */
  predicate DistinctLists(u: UserProfile) {
    NoDup(ListOr(u.interests)) && NoDup(ListOr(u.preferredActivities)) && NoDup(ListOr(u.availableDays))
  }

  /** Between duplicate-free lists the overlap is the same both ways. */
  lemma OverlapSymmetric(xs: seq<string>, ys: seq<string>)
    requires NoDup(xs) && NoDup(ys)
    ensures Overlap(xs, ys) == Overlap(ys, xs)
  {
    OverlapOfDistinct(xs, ys);
    OverlapOfDistinct(ys, xs);
    assert Elems(xs) * Elems(ys) == Elems(ys) * Elems(xs);
  }

  /** With duplicate-free lists the score is the same in both directions. */
  lemma ScoreSymmetric(a: UserProfile, b: UserProfile)
    requires Scorable(a, b)
    requires DistinctLists(a) && DistinctLists(b)
    ensures Score(a, b) == Score(b, a)
  {
    OverlapSymmetric(ListOr(a.interests), ListOr(b.interests));
    OverlapSymmetric(ListOr(a.preferredActivities), ListOr(b.preferredActivities));
    OverlapSymmetric(ListOr(a.availableDays), ListOr(b.availableDays));
    AgeTermSymmetric(ToNumber(a.age).value, ToNumber(b.age).value);
  }

  /** A `null` age is scored as age 0 (`x - null` is `x`): the requester of
      age `a` and a candidate without an age are `|a|` years apart. */
  lemma NullAgeScoresAsZero(profile: UserProfile, candidate: UserProfile)
    requires ToNumber(profile.age).Some?
    ensures Score(profile, candidate.(age := Null)) == Score(profile, candidate.(age := Int(0)))
    ensures var a := ToNumber(profile.age).value;
      Score(profile, candidate.(age := Null)) >= AgeTerm(if a >= 0 then a else -a)
  {
  }

  // ---------------------------------------------------------------- sorting

  /** Highest compatibility first. */
  predicate SortedDesc(ms: seq<Match>) {
    forall i, j :: 0 <= i < j < |ms| ==> ms[i].compatibility >= ms[j].compatibility
  }

  /** The matches of one score, in order. A sort is stable exactly when it
      keeps every such subsequence. */
  function WithScore(k: real, ms: seq<Match>): seq<Match> {
    Filter((m: Match) => m.compatibility == k, ms)
  }

  lemma WithScoreCons(k: real, m: Match, ms: seq<Match>)
    ensures WithScore(k, [m] + ms) == (if m.compatibility == k then [m] else []) + WithScore(k, ms)
  {
    assert ([m] + ms)[1..] == ms;
  }

  /** A top score in front of a sorted sequence keeps it sorted. */
  lemma SortedCons(x: Match, ms: seq<Match>)
    requires SortedDesc(ms)
    requires forall y :: y in ms ==> y.compatibility <= x.compatibility
    ensures SortedDesc([x] + ms)
  {
    forall i, j | 0 <= i < j < |[x] + ms| ensures ([x] + ms)[i].compatibility >= ([x] + ms)[j].compatibility {
      assert ([x] + ms)[j] == ms[j - 1];
      if i > 0 {
        assert ([x] + ms)[i] == ms[i - 1];
      }
    }
  }

  /** Places `m` before the first entry that does not score higher. */
  function Insert(m: Match, ms: seq<Match>): (r: seq<Match>)
    ensures multiset(r) == multiset(ms) + multiset{m}
    ensures SortedDesc(ms) ==> SortedDesc(r)
  {
    if ms == [] || m.compatibility >= ms[0].compatibility then
      if SortedDesc(ms) then SortedCons(m, ms); [m] + ms else [m] + ms
    else
      var rest := Insert(m, ms[1..]);
      assert ms == [ms[0]] + ms[1..];
      if SortedDesc(ms) then
        InsertedFrom(rest, m, ms[1..]);
        SortedCons(ms[0], rest);
        [ms[0]] + rest
      else
        [ms[0]] + rest
  }

  /** Every element of `r` is `m` or an element of `ms`, when `r` holds `ms` and `m`. */
  lemma InsertedFrom(r: seq<Match>, m: Match, ms: seq<Match>)
    requires multiset(r) == multiset(ms) + multiset{m}
    ensures forall x :: x in r ==> x == m || x in ms
  {
    forall x | x in r ensures x == m || x in ms {
      assert x in multiset(r);
    }
  }

  /** Insertion keeps the order of equal scores, `m` going first among its own. */
  lemma {:induction false} InsertStable(k: real, m: Match, ms: seq<Match>)
    ensures WithScore(k, Insert(m, ms)) == WithScore(k, [m] + ms)
  {
    if ms != [] && m.compatibility < ms[0].compatibility {
      var rest := Insert(m, ms[1..]);
      InsertStable(k, m, ms[1..]);
      WithScoreCons(k, ms[0], rest);
      WithScoreCons(k, m, ms[1..]);
      WithScoreCons(k, m, ms);
      assert ms == [ms[0]] + ms[1..];
      WithScoreCons(k, ms[0], ms[1..]);
    }
  }

  /** The stable sort of the pipeline's `.sort((a, b) => b.compatibility - a.compatibility)`. */
  function SortDesc(ms: seq<Match>): (r: seq<Match>)
    ensures multiset(r) == multiset(ms)
    ensures SortedDesc(r)
  {
    if ms == [] then []
    else
      assert ms == [ms[0]] + ms[1..];
      Insert(ms[0], SortDesc(ms[1..]))
  }

  /** Equal scores keep their relative order. */
  lemma {:induction false} SortStable(k: real, ms: seq<Match>)
    ensures WithScore(k, SortDesc(ms)) == WithScore(k, ms)
  {
    if ms != [] {
      SortStable(k, ms[1..]);
      InsertStable(k, ms[0], SortDesc(ms[1..]));
      WithScoreCons(k, ms[0], SortDesc(ms[1..]));
      WithScoreCons(k, ms[0], ms[1..]);
      assert ms == [ms[0]] + ms[1..];
    }
  }

  /** The first entry of a sorted sequence scores highest. */
  lemma SortedHeadMax(b: seq<Match>, x: Match)
    requires SortedDesc(b) && x in b
    ensures b[0].compatibility >= x.compatibility
  {
    var j :| 0 <= j < |b| && b[j] == x;
  }

  /** The first entry of `a` appears in `b` whenever both have the same
      per-score subsequence for its score; so `b` starts no lower. */
  lemma HeadNotAbove(a: seq<Match>, b: seq<Match>)
    requires SortedDesc(b) && a != []
    requires WithScore(a[0].compatibility, a) == WithScore(a[0].compatibility, b)
    ensures b != [] && b[0].compatibility >= a[0].compatibility
  {
    var k := a[0].compatibility;
    assert a == [a[0]] + a[1..];
    WithScoreCons(k, a[0], a[1..]);
    assert a[0] in WithScore(k, b);
    SortedHeadMax(b, a[0]);
  }

  /** Two sorted sequences with the same per-score subsequences start alike. */
  lemma SameFirst(a: seq<Match>, b: seq<Match>)
    requires SortedDesc(a) && SortedDesc(b) && a != [] && b != []
    requires forall k :: WithScore(k, a) == WithScore(k, b)
    ensures a[0] == b[0]
  {
    var k, l := a[0].compatibility, b[0].compatibility;
    assert WithScore(k, a) == WithScore(k, b);
    assert WithScore(l, b) == WithScore(l, a);
    HeadNotAbove(a, b);
    HeadNotAbove(b, a);
    SameHeads(a, b, k);
  }

  /** Sequences starting with the same score and holding the same entries
      of that score start with the same entry. */
  lemma SameHeads(a: seq<Match>, b: seq<Match>, k: real)
    requires a != [] && b != [] && a[0].compatibility == k && b[0].compatibility == k
    requires WithScore(k, a) == WithScore(k, b)
    ensures a[0] == b[0]
  {
    WithScoreHead(k, a);
    WithScoreHead(k, b);
  }

  /** A sequence that starts with score `k` starts its own `k` subsequence. */
  lemma WithScoreHead(k: real, a: seq<Match>)
    requires a != [] && a[0].compatibility == k
    ensures WithScore(k, a) != [] && WithScore(k, a)[0] == a[0]
  {
    assert a == [a[0]] + a[1..];
    WithScoreCons(k, a[0], a[1..]);
  }

  /** Every entry shows up among the entries of its own score. */
  lemma InOwnScore(x: Match, s: seq<Match>)
    requires x in s
    ensures x in WithScore(x.compatibility, s)
  {
  }

  /** A sorted sequence is determined by its per-score subsequences: so the
      result of any stable descending sort is the one `SortDesc` computes. */
  lemma {:induction false} StableSortUnique(a: seq<Match>, b: seq<Match>)
    requires SortedDesc(a) && SortedDesc(b)
    requires forall k :: WithScore(k, a) == WithScore(k, b)
    ensures a == b
  {
    NonEmptyAlike(a, b);
    NonEmptyAlike(b, a);
    if a != [] {
      SameFirst(a, b);
      SameTails(a, b);
      SortedTail(a);
      SortedTail(b);
      StableSortUnique(a[1..], b[1..]);
      assert a == [a[0]] + a[1..] && b == [b[0]] + b[1..];
    }
  }

  /** With equal per-score subsequences, `b` is empty only if `a` is. */
  lemma NonEmptyAlike(a: seq<Match>, b: seq<Match>)
    requires forall k :: WithScore(k, a) == WithScore(k, b)
    ensures a != [] ==> b != []
  {
    if a != [] {
      assert a[0] in a;
      SameMembers(a, b);
      assert a[0] in b;
    }
  }

  /** Equal per-score subsequences leave no entry of `a` out of `b`. */
  lemma SameMembers(a: seq<Match>, b: seq<Match>)
    requires forall k :: WithScore(k, a) == WithScore(k, b)
    ensures forall x :: x in a ==> x in b
  {
    forall x | x in a ensures x in b {
      InOwnScore(x, a);
      assert WithScore(x.compatibility, a) == WithScore(x.compatibility, b);
    }
  }

  lemma SortedTail(a: seq<Match>)
    requires SortedDesc(a) && a != []
    ensures SortedDesc(a[1..])
  {
    forall i, j | 0 <= i < j < |a[1..]| ensures a[1..][i].compatibility >= a[1..][j].compatibility {
      assert a[1..][i] == a[i + 1] && a[1..][j] == a[j + 1];
    }
  }

  /** Dropping the same first entry keeps the per-score subsequences equal. */
  lemma SameTails(a: seq<Match>, b: seq<Match>)
    requires a != [] && b != [] && a[0] == b[0]
    requires forall k :: WithScore(k, a) == WithScore(k, b)
    ensures forall k :: WithScore(k, a[1..]) == WithScore(k, b[1..])
  {
    assert a == [a[0]] + a[1..] && b == [b[0]] + b[1..];
    forall k ensures WithScore(k, a[1..]) == WithScore(k, b[1..]) {
      WithScoreCons(k, a[0], a[1..]);
      WithScoreCons(k, b[0], b[1..]);
      var front: seq<Match> := if a[0].compatibility == k then [a[0]] else [];
      var restA, restB := WithScore(k, a[1..]), WithScore(k, b[1..]);
      assert front + restA == front + restB by {
        assert WithScore(k, a) == WithScore(k, b);
      }
      assert (front + restA)[|front|..] == restA;
      assert (front + restB)[|front|..] == restB;
    }
  }

  // --------------------------------------------------------------- pipeline

  /** Every record that passes the gates can be scored: the requester's age
      and the record's are numbers or `null`. A pool in which nobody passes
      puts no demand on any age. */
  predicate ScorablePool(profile: UserProfile, location: Option<Place>, dist: Distance, pool: seq<UserProfile>) {
    forall u :: u in pool && Eligible(profile, location, dist, u) ==> Scorable(profile, u)
  }

  /** The `.map(...)` step: each survivor with its score attached. */
  function Scored(profile: UserProfile, us: seq<UserProfile>): (r: seq<Match>)
    requires forall u :: u in us ==> Scorable(profile, u)
    ensures |r| == |us|
    ensures forall i :: 0 <= i < |us| ==> r[i].user == us[i] && r[i].compatibility == Score(profile, us[i])
  {
    seq(|us|, i requires 0 <= i < |us| => Match(us[i], Score(profile, us[i])))
  }

  /** `findMatches(currentUser, userProfile, location)` over the outcome of the
      pool fetch. A failed fetch is passed on as a failure; otherwise the result
      is exactly the eligible pool records, each with its score, highest score
      first. */
  function FindMatches(fetched: Result<seq<UserProfile>, string>, profile: UserProfile,
                       location: Option<Place>, dist: Distance): (r: Result<seq<Match>, string>)
    requires fetched.Success? ==> ScorablePool(profile, location, dist, fetched.value)
    ensures r.Failure? <==> fetched.Failure?
    ensures fetched.Failure? ==> r.error == fetched.error
    ensures r.Success? ==> SortedDesc(r.value)
    ensures r.Success? ==> forall m :: m in r.value ==>
      && m.user in fetched.value
      && Eligible(profile, location, dist, m.user)
      && m.compatibility == Score(profile, m.user)
    ensures r.Success? ==> forall u :: u in fetched.value && Eligible(profile, location, dist, u) ==>
      Match(u, Score(profile, u)) in r.value
    ensures r.Success? ==>
      multiset(r.value) == multiset(Scored(profile, Survivors(profile, location, dist, fetched.value)))
  {
    match fetched
    case Failure(e) => Failure(e)
    case Success(pool) =>
      var survivors := Survivors(profile, location, dist, pool);
      var scored := Scored(profile, survivors);
      var sorted := SortDesc(scored);
      ScoredMembers(profile, survivors, sorted);
      Success(sorted)
  }

  /** What a permutation of the scored survivors holds. */
  lemma ScoredMembers(profile: UserProfile, survivors: seq<UserProfile>, sorted: seq<Match>)
    requires forall u :: u in survivors ==> Scorable(profile, u)
    requires multiset(sorted) == multiset(Scored(profile, survivors))
    ensures forall m :: m in sorted ==> m.user in survivors && m.compatibility == Score(profile, m.user)
    ensures forall u :: u in survivors ==> Match(u, Score(profile, u)) in sorted
  {
    var scored := Scored(profile, survivors);
    forall m | m in sorted ensures m.user in survivors && m.compatibility == Score(profile, m.user) {
      assert m in multiset(scored);
      var i :| 0 <= i < |scored| && scored[i] == m;
    }
    forall u | u in survivors ensures Match(u, Score(profile, u)) in sorted {
      var i :| 0 <= i < |survivors| && survivors[i] == u;
      assert scored[i] == Match(u, Score(profile, u));
      assert scored[i] in multiset(sorted);
    }
  }

  /** Ties keep pool order: for every score, the matches with that score appear
      in the order their records have in the pool. */
  lemma FindMatchesStable(pool: seq<UserProfile>, profile: UserProfile, location: Option<Place>, dist: Distance, k: real)
    requires ScorablePool(profile, location, dist, pool)
    ensures var r := FindMatches(Success(pool), profile, location, dist);
      r.Success? && WithScore(k, r.value) == WithScore(k, Scored(profile, Survivors(profile, location, dist, pool)))
  {
    SortStable(k, Scored(profile, Survivors(profile, location, dist, pool)));
  }

  /** An empty pool gives an empty success, not a failure. */
  lemma EmptyPoolNoMatches(profile: UserProfile, location: Option<Place>, dist: Distance)
    ensures FindMatches(Success([]), profile, location, dist) == Success([])
  {
  }

  /** A requester without `ageRange` matches nobody. */
  lemma NoAgeRangeNoMatches(pool: seq<UserProfile>, profile: UserProfile, location: Option<Place>, dist: Distance)
    requires profile.ageRange.None?
    ensures FindMatches(Success(pool), profile, location, dist) == Success([])
  {
    FilterNone(u => Eligible(profile, location, dist, u), pool);
  }

  /** Without a requester location the distance never matters: a pool record
      is matched exactly when it passes the age gate. */
  lemma NoLocationAgeOnly(pool: seq<UserProfile>, profile: UserProfile, dist: Distance, u: UserProfile)
    requires forall v :: v in pool && InAgeRange(profile, v) ==> Scorable(profile, v)
    requires u in pool
    ensures var r := FindMatches(Success(pool), profile, None, dist);
      r.Success? && ((exists m :: m in r.value && m.user == u) <==> InAgeRange(profile, u))
  {
    var r := FindMatches(Success(pool), profile, None, dist);
    if InAgeRange(profile, u) {
      assert Match(u, Score(profile, u)) in r.value;
    }
  }

  /** The pipeline's order is the only one a stable descending sort can give:
      any sorted arrangement of the scored survivors that keeps the order of
      equal scores is the result. */
  lemma FindMatchesIsTheStableSort(pool: seq<UserProfile>, profile: UserProfile, location: Option<Place>,
                                   dist: Distance, other: seq<Match>)
    requires ScorablePool(profile, location, dist, pool)
    requires SortedDesc(other)
    requires forall k :: WithScore(k, other) == WithScore(k, Scored(profile, Survivors(profile, location, dist, pool)))
    ensures FindMatches(Success(pool), profile, location, dist) == Success(other)
  {
    var r := FindMatches(Success(pool), profile, location, dist);
    forall k ensures WithScore(k, r.value) == WithScore(k, other) {
      FindMatchesStable(pool, profile, location, dist, k);
    }
    StableSortUnique(r.value, other);
  }

  // A worked scenario: a requester aged 28 accepting 25 to 35, and two pool
  // records at the same place.
  const ScenarioHere := Coordinates(34.05, -118.24)
  const ScenarioRequester := UserProfile("me", Int(28), Some(["hiking", "coffee"]), Some(["outdoor"]), Some(["sat"]),
                                         Some(AgeRange(Int(25), Int(35))), Int(25), Some(ScenarioHere))
  const ScenarioA := UserProfile("a", Int(30), Some(["hiking", "coffee"]), Some(["outdoor"]), Some(["sat", "sun"]),
                                 None, Undefined, Some(ScenarioHere))
  const ScenarioB := UserProfile("b", Int(40), Some(["hiking"]), None, None, None, Undefined, Some(ScenarioHere))

  /** The overlap of a one-entry list. */
  lemma OverlapSingle(x: string, theirs: seq<string>)
    ensures Overlap([x], theirs) == if x in theirs then 1 else 0
  {
    OverlapAppend([], x, theirs);
    assert [] + [x] == [x];
  }

  /** The 30-year-old shares two interests, one activity and one day:
      50 + 50 + 40 + 10 + 30/2 = 165. */
  lemma ScenarioScore()
    ensures Score(ScenarioRequester, ScenarioA) == 165.0
  {
    ScenarioInterests();
    OverlapSingle("outdoor", ["outdoor"]);
    OverlapSingle("sat", ["sat", "sun"]);
    assert "outdoor" in ["outdoor"] && "sat" in ["sat", "sun"];
    assert AgeTerm(AgeGap(28, 30)) == 15.0;
  }

  /** Both of the requester's interests are shared. */
  lemma ScenarioInterests()
    ensures Overlap(["hiking", "coffee"], ["hiking", "coffee"]) == 2
  {
    var both: seq<string> := ["hiking", "coffee"];
    assert "hiking" in both && "coffee" in both;
    OverlapSingle("hiking", both);
    OverlapAppend(["hiking"], "coffee", both);
    assert ["hiking"] + ["coffee"] == both;
  }

  /** With the two at distance 0, only the 30-year-old passes the gates. */
  lemma ScenarioSurvivors(dist: Distance)
    requires dist(ScenarioHere, ScenarioHere) == Some(0.0)
    ensures Survivors(ScenarioRequester, Some(ScenarioHere), dist, [ScenarioA, ScenarioB]) == [ScenarioA]
  {
    var p := u => Eligible(ScenarioRequester, Some(ScenarioHere), dist, u);
    assert p(ScenarioA);
    assert !p(ScenarioB);
    assert [ScenarioA, ScenarioB] == [ScenarioA] + [ScenarioB];
    FilterAppend(p, [ScenarioA], [ScenarioB]);
    FilterSingle(p, ScenarioA);
    FilterSingle(p, ScenarioB);
  }

  /** The whole pipeline on the scenario: the 30-year-old alone, scoring 165;
      the 40-year-old is outside the range and absent. */
  lemma Scenario(dist: Distance)
    requires dist(ScenarioHere, ScenarioHere) == Some(0.0)
    ensures FindMatches(Success([ScenarioA, ScenarioB]), ScenarioRequester, Some(ScenarioHere), dist)
         == Success([Match(ScenarioA, 165.0)])
  {
    ScenarioSurvivors(dist);
    ScenarioScore();
    SortOne(ScenarioRequester, ScenarioA);
  }

  /** A single survivor is the whole result, with its score. */
  lemma SortOne(profile: UserProfile, u: UserProfile)
    requires Scorable(profile, u)
    ensures SortDesc(Scored(profile, [u])) == [Match(u, Score(profile, u))]
  {
    var scored := Scored(profile, [u]);
    assert scored == [Match(u, Score(profile, u))];
    assert scored[1..] == [];
  }
}

=== FILE: profilesetup.dfy ===
/** The form logic of `src/pages/SetupProfilePage.jsx`: toggling an
    available day, and the update record the submit handler writes for the
    signed-in user. */
module ProfileSetup {
  import opened Wrappers
  import opened Seqs
  import opened JsStrings

  /** The minimum of the accepted age range: the form never changes it. */
  const MinAge := 18

  const NoUserMessage := "No user logged in."
  const SavedMessage := "Profile saved successfully!"

  /** The text fields of the form as typed, plus the ticked days. The initial
      maximum age is 30 and the initial radius 25, both read back by
      `parseInt`. */
  datatype Form = Form(
    age: string,
    maxAge: string,
    availableDays: seq<string>,
    bio: string,
    interests: string,
    location: string,
    radius: string,
    preferredActivities: string)

  /** `{ min, max }` of the update; `None` stands for `NaN`. */
  datatype Range = Range(min: int, max: Option<int>)

  /** The `updates` record of `handleSubmit`. */
  datatype Updates = Updates(
    age: Option<int>,
    ageRange: Range,
    availableDays: seq<string>,
    bio: string,
    interests: seq<string>,
    location: string,
    maxDistance: Option<int>,
    preferredActivities: seq<string>)

  /** What submitting does: with nobody signed in only a message is shown;
      otherwise the update is written for the user's id. */
  datatype Submission = NotSignedIn(message: string) | Write(uid: string, updates: Updates)

  // ------------------------------------------------------------- toggleDay

  /** `toggleDay(day)`: remove every occurrence of a ticked day, or append an
      unticked one. */
  function ToggleDay(days: seq<string>, day: string): (r: seq<string>)
    ensures day in r <==> day !in days
    ensures forall d :: d != day ==> (d in r <==> d in days)
    ensures day in days ==> forall d :: d != day ==> multiset(r)[d] == multiset(days)[d]
    ensures day !in days ==> |r| == |days| + 1 && r[..|days|] == days && r[|days|] == day
  {
    if day in days then Filter(d => d != day, days) else days + [day]
  }

  /** Removing a day keeps the other days in their order: what is removed from
      a concatenation is removed from each part. */
  lemma ToggleRemoveKeepsOrder(a: seq<string>, b: seq<string>, day: string)
    requires day in a
    ensures ToggleDay(a + b, day) == ToggleDay(a, day) + Filter(d => d != day, b)
  {
    FilterAppend(d => d != day, a, b);
  }

  /** Toggling keeps a list of days free of duplicates. */
  lemma ToggleKeepsNoDup(days: seq<string>, day: string)
    requires NoDup(days)
    ensures NoDup(ToggleDay(days, day))
  {
    if day in days {
      FilterNoDup(d => d != day, days);
    }
  }

  /** Ticking an unticked day and unticking it again restores the list. */
  lemma ToggleTwiceRestores(days: seq<string>, day: string)
    requires day !in days
    ensures ToggleDay(ToggleDay(days, day), day) == days
  {
    FilterAppend(d => d != day, days, [day]);
    FilterSingle(d => d != day, day);
    FilterAll(d => d != day, days);
  }

  // --------------------------------------------------------------- submit

  /** `text.split(",").map((i) => i.trim())`: every comma starts a new entry,
      entries are trimmed, and empty entries are kept. */
  function CommaList(text: string): (r: seq<string>)
    ensures |r| == Count(text, ',') + 1
    ensures forall e :: e in r ==> IsTrimmed(e) && ',' !in e
    ensures forall i :: 0 <= i < |r| ==> r[i] == Trim(Split(text, ',')[i])
  {
    SplitTrim(text, ',')
  }

  /** Typing back a list of trimmed, comma-free entries joined with commas
      gives that list, empty entries included. */
  lemma CommaListRoundTrip(entries: seq<string>)
    requires |entries| >= 1
    requires forall e :: e in entries ==> IsTrimmed(e) && ',' !in e
    ensures CommaList(Join(entries, ',')) == entries
  {
    SplitTrimJoin(entries, ',');
  }

  /** `handleSubmit` for the signed-in user `user`, if any. */
  function Submit(user: Option<string>, form: Form): (r: Submission)
    ensures user.None? <==> r.NotSignedIn?
    ensures user.None? ==> r.message == NoUserMessage
    ensures r.Write? ==>
      && r.uid == user.value
      && r.updates.ageRange.min == MinAge
      && r.updates.age == ParseInt(form.age)
      && r.updates.ageRange.max == ParseInt(form.maxAge)
      && r.updates.maxDistance == ParseInt(form.radius)
      && r.updates.availableDays == form.availableDays
      && r.updates.interests == CommaList(form.interests)
      && r.updates.preferredActivities == CommaList(form.preferredActivities)
      && |r.updates.interests| == Count(form.interests, ',') + 1
      && |r.updates.preferredActivities| == Count(form.preferredActivities, ',') + 1
      && r.updates.bio == form.bio && r.updates.location == form.location
  {
    match user
    case None => NotSignedIn(NoUserMessage)
    case Some(uid) =>
      Write(uid, Updates(
        ParseInt(form.age),
        Range(MinAge, ParseInt(form.maxAge)),
        form.availableDays,
        form.bio,
        CommaList(form.interests),
        form.location,
        ParseInt(form.radius),
        CommaList(form.preferredActivities)))
  }

  /** The message shown once the write has finished. */
  function ResultMessage(written: Result<(), string>): (m: string)
    ensures written.Success? ==> m == SavedMessage
    ensures written.Failure? ==> m == "Error: " + written.error
  {
    match written
    case Success(_) => SavedMessage
    case Failure(e) => "Error: " + e
  }

  /** Typing a number into the maximum-age and radius fields stores exactly
      that number. */
  lemma SubmitStoresNumbers(uid: string, form: Form, maxAge: int, radius: int)
    requires form.maxAge == IntToString(maxAge) && form.radius == IntToString(radius)
    ensures var r := Submit(Some(uid), form);
      r.updates.ageRange == Range(18, Some(maxAge)) && r.updates.maxDistance == Some(radius)
  {
    ParseIntRoundTrip(maxAge);
    ParseIntRoundTrip(radius);
  }
}

=== FILE: seqs.dfy ===
/** Sequence operations the model shares: the order-preserving filter of
    `Array.prototype.filter`, duplicate-freeness and the set of elements. */
module Seqs {

  /** `s.filter(p)`: the elements of `s` satisfying `p`, in their original order. */
  function Filter<T(==,!new)>(p: T -> bool, s: seq<T>): (r: seq<T>)
    ensures |r| <= |s|
    ensures forall x :: x in r <==> x in s && p(x)
    ensures forall x :: multiset(r)[x] == if p(x) then multiset(s)[x] else 0
  {
    if s == [] then []
    else
      var rest := Filter(p, s[1..]);
      assert s == [s[0]] + s[1..];
      assert multiset(s) == multiset([s[0]]) + multiset(s[1..]);
      if p(s[0]) then [s[0]] + rest else rest
  }

  /** Filtering distributes over concatenation: the filter keeps order. */
  lemma {:induction false} FilterAppend<T(!new)>(p: T -> bool, a: seq<T>, b: seq<T>)
    ensures Filter(p, a + b) == Filter(p, a) + Filter(p, b)
  {
    if a == [] {
      assert a + b == b;
    } else {
      assert (a + b)[0] == a[0];
      assert (a + b)[1..] == a[1..] + b;
      FilterAppend(p, a[1..], b);
    }
  }

  /** The filter of a one-element sequence. */
  lemma FilterSingle<T(!new)>(p: T -> bool, x: T)
    ensures Filter(p, [x]) == if p(x) then [x] else []
  {
    assert [x][1..] == [];
  }

  /** Filtering with a predicate every element satisfies changes nothing. */
  lemma {:induction false} FilterAll<T(!new)>(p: T -> bool, s: seq<T>)
    requires forall x :: x in s ==> p(x)
    ensures Filter(p, s) == s
  {
    if s != [] {
      FilterAll(p, s[1..]);
    }
  }

  /** Filtering with a predicate no element satisfies leaves nothing. */
  lemma {:induction false} FilterNone<T(!new)>(p: T -> bool, s: seq<T>)
    requires forall x :: x in s ==> !p(x)
    ensures Filter(p, s) == []
  {
    if s != [] {
      FilterNone(p, s[1..]);
    }
  }

  /** No element occurs twice. */
  predicate NoDup<T(==,!new)>(s: seq<T>) {
    forall i, j :: 0 <= i < j < |s| ==> s[i] != s[j]
  }

  /** The set of elements of a sequence. */
  function Elems<T(!new)>(s: seq<T>): set<T> {
    set x | x in s
  }

  /** A duplicate-free sequence has as many elements as its set. */
  lemma {:induction false} NoDupCard<T(!new)>(s: seq<T>)
    requires NoDup(s)
    ensures |Elems(s)| == |s|
  {
    if s != [] {
      assert NoDup(s[1..]) by {
        forall i, j | 0 <= i < j < |s[1..]| ensures s[1..][i] != s[1..][j] {
          assert s[1..][i] == s[i + 1] && s[1..][j] == s[j + 1];
        }
      }
      NoDupCard(s[1..]);
      assert s[0] !in s[1..] by {
        forall k | 0 <= k < |s[1..]| ensures s[1..][k] != s[0] {
          assert s[1..][k] == s[k + 1];
        }
      }
      assert Elems(s) == {s[0]} + Elems(s[1..]) by {
        assert s == [s[0]] + s[1..];
      }
    }
  }

  /** Filtering never creates duplicates. */
  lemma {:induction false} FilterNoDup<T(!new)>(p: T -> bool, s: seq<T>)
    requires NoDup(s)
    ensures NoDup(Filter(p, s))
  {
    var r := Filter(p, s);
    forall x | x in r ensures multiset(r)[x] == 1 {
      MultiplicityOne(s, x);
    }
    MultiplicityNoDup(r);
  }

  /** In a duplicate-free sequence every element occurs exactly once. */
  lemma {:induction false} MultiplicityOne<T(!new)>(s: seq<T>, x: T)
    requires NoDup(s)
    requires x in s
    ensures multiset(s)[x] == 1
  {
    assert s == [s[0]] + s[1..];
    assert NoDup(s[1..]) by {
      forall i, j | 0 <= i < j < |s[1..]| ensures s[1..][i] != s[1..][j] {
        assert s[1..][i] == s[i + 1] && s[1..][j] == s[j + 1];
      }
    }
    assert s[0] !in s[1..] by {
      forall k | 0 <= k < |s[1..]| ensures s[1..][k] != s[0] {
        assert s[1..][k] == s[k + 1];
      }
    }
    if x == s[0] {
      assert multiset(s[1..])[x] == 0;
    } else {
      MultiplicityOne(s[1..], x);
    }
  }

  /** A sequence in which every element occurs once is duplicate-free. */
  lemma MultiplicityNoDup<T(!new)>(s: seq<T>)
    requires forall x :: x in s ==> multiset(s)[x] == 1
    ensures NoDup(s)
  {
    forall i, j | 0 <= i < j < |s| ensures s[i] != s[j] {
      var front, back := s[..j], s[j..];
      assert s == front + back;
      assert s[i] == front[i];
      assert multiset(s)[s[i]] == multiset(front)[s[i]] + multiset(back)[s[i]];
      assert multiset(back)[s[i]] == 0;
      assert back[0] == s[j];
    }
  }
}

=== FILE: signup.dfy ===
/** The sign-up record of `src/components/AuthTest.jsx`: what `handleSignUp`
    builds from the form before handing it to the account service. */
module SignUp {
  import opened Wrappers
  import opened Seqs
  import opened JsStrings

  /** The `userData` record: the typed name, age, bio and interests, and fixed
      defaults for everything else. */
  datatype UserData = UserData(
    name: string,
    age: Option<int>,
    bio: string,
    interests: seq<string>,
    preferredActivities: seq<string>,
    availableDays: seq<string>,
    ageRangeMin: int,
    ageRangeMax: int,
    maxDistance: int)

  /** `(i) => i`: a string is truthy when it is not empty. */
  predicate NonEmpty(e: string) {
    e != ""
  }

  /** `interests.split(",").map((i) => i.trim()).filter((i) => i)`: the
      trimmed entries that are not empty. */
  function ParseInterests(text: string): (r: seq<string>)
    ensures |r| <= Count(text, ',') + 1
    ensures forall e :: e in r ==> e != "" && IsTrimmed(e) && ',' !in e
  {
    Filter(NonEmpty, SplitTrim(text, ','))
  }

  /** A piece without a comma reads as its trimmed text, or as nothing when
      that is empty. */
  lemma ParseInterestsPiece(a: string)
    requires ',' !in a
    ensures ParseInterests(a) == if Trim(a) == "" then [] else [Trim(a)]
  {
    SplitPiece(a, ',');
    assert SplitTrim(a, ',') == [Trim(a)];
    FilterSingle(NonEmpty, Trim(a));
  }

  /** The interests of "a,b" are those of `a` followed by those of `b`: the
      reading goes piece by piece, in order. */
  lemma ParseInterestsAppend(a: string, b: string)
    requires ',' !in a
    ensures ParseInterests(a + "," + b) == ParseInterests(a) + ParseInterests(b)
  {
    SplitAfterPiece(a, ',', b);
    assert a + "," + b == a + [','] + b;
    var rest := Split(b, ',');
    assert TrimAll([a] + rest) == [Trim(a)] + TrimAll(rest) by {
      TrimAllAppend([a], rest);
    }
    SplitPiece(a, ',');
    FilterAppend(NonEmpty, [Trim(a)], TrimAll(rest));
    assert SplitTrim(a, ',') == [Trim(a)];
  }

  /** Interests typed as a comma-separated list of non-empty, trimmed,
      comma-free entries are read back in order. */
  lemma ParseInterestsRoundTrip(entries: seq<string>)
    requires forall e :: e in entries ==> e != "" && IsTrimmed(e) && ',' !in e
    ensures ParseInterests(Join(entries, ',')) == entries
  {
    if entries != [] {
      SplitTrimJoin(entries, ',');
      FilterAll(NonEmpty, entries);
    }
  }

  /** Blank entries and blanks around entries are dropped: "a, ,b," reads as
      the two interests "a" and "b". */
  lemma ParseInterestsExample()
    ensures ParseInterests("a, ,b,") == ["a", "b"]
  {
    InterestsShape('a', 'b');
  }

  /** The example with its letters abstracted, so that the verifier does not
      evaluate the string functions on the literal. */
  lemma InterestsShape(x: char, y: char)
    requires !IsJsSpace(x) && !IsJsSpace(y) && x != ',' && y != ','
    ensures ParseInterests([x, ',', ' ', ',', y, ',']) == [[x], [y]]
  {
    var tail := [y] + "," + [];
    var rest := [' '] + "," + tail;
    RestShape(y, tail, rest);
    ParseInterestsAppend([x], rest);
    ParseInterestsPiece([x]);
    TrimLetter(x);
    TwoEntries([x], [y]);
    ExampleText(x, y, rest, tail, []);
  }

  // The lemmas from here to TrimBlank serve only ParseInterestsExample;
  // they model nothing of their own.

  /** " ,y," reads as the one interest "y". */
  lemma RestShape(y: char, tail: string, rest: string)
    requires !IsJsSpace(y) && y != ','
    requires tail == [y] + "," + [] && rest == [' '] + "," + tail
    ensures ParseInterests(rest) == [[y]]
  {
    ParseInterestsPiece([' ']);
    TrimBlank();
    assert ParseInterests([' ']) == [];
    TailShape(y, tail);
    ParseInterestsAppend([' '], tail);
  }

  /** "y," reads as the one interest "y". */
  lemma TailShape(y: char, tail: string)
    requires !IsJsSpace(y) && y != ','
    requires tail == [y] + "," + []
    ensures ParseInterests(tail) == [[y]]
  {
    ParseInterestsPiece([y]);
    TrimLetter(y);
    assert ParseInterests([y]) == [[y]];
    ParseInterestsPiece([]);
    TrimEmpty();
    assert ParseInterests([]) == [];
    ParseInterestsAppend([y], []);
  }

  /** A two-entry list as a concatenation, for the example. */
  lemma TwoEntries(a: string, b: string)
    ensures [a] + [b] == [a, b]
  {
  }

  /** The example's text as the pieces the example proof joins. */
  lemma ExampleText(x: char, y: char, rest: string, tail: string, last: string)
    requires last == [] && tail == [y] + "," + last && rest == [' '] + "," + tail
    ensures [x] + "," + rest == [x, ',', ' ', ',', y, ',']
  {
  }

  /** A single non-space letter trims to itself, for the example. */
  lemma TrimLetter(c: char)
    requires !IsJsSpace(c)
    ensures Trim([c]) == [c]
  {
    assert IsTrimmed([c]);
  }

  /** The empty text trims to itself, for the example. */
  lemma TrimEmpty()
    ensures Trim("") == ""
  {
    assert IsTrimmed("");
  }

  /** A lone space trims to nothing, for the example. */
  lemma TrimBlank()
    ensures Trim(" ") == ""
  {
    assert IsJsSpace(" "[0]);
  }

  /** `parseInt(age) || null`: a typed age of 0, or text without digits,
      gives no age. */
  function SignUpAge(text: string): (r: Option<int>)
    ensures r.Some? ==> r.value != 0 && ParseInt(text) == r
    ensures r.None? <==> ParseInt(text).None? || ParseInt(text) == Some(0)
  {
    match ParseInt(text)
    case Some(n) => if n != 0 then Some(n) else None
    case None => None
  }

  /** A typed non-zero number is stored as the age. */
  lemma SignUpAgeOfNumber(n: int)
    requires n != 0
    ensures SignUpAge(IntToString(n)) == Some(n)
  {
    ParseIntRoundTrip(n);
  }

  /** `handleSignUp`'s `userData`. */
  function SignUpData(name: string, ageText: string, bio: string, interestsText: string): (r: UserData)
    ensures r.name == name && r.bio == bio
    ensures r.age == SignUpAge(ageText)
    ensures r.interests == ParseInterests(interestsText)
    ensures r.preferredActivities == ["outdoor", "food"]
    ensures r.availableDays == ["saturday", "sunday"]
    ensures r.ageRangeMin == 18 && r.ageRangeMax == 65
    ensures r.maxDistance == 25
  {
    UserData(name, SignUpAge(ageText), bio, ParseInterests(interestsText),
             ["outdoor", "food"], ["saturday", "sunday"], 18, 65, 25)
  }
}

=== FILE: wrappers.dfy ===
/** Optional values and success/failure results, the shapes the JavaScript
    source expresses with `undefined`/`null` and with `{ success, data, error }`
    records. */
module Wrappers {

  /** A value that may be missing. In the model `None` stands for a JavaScript
      property that is `undefined`, `null` or (for numbers) `NaN`. */
  datatype Option<+T> = None | Some(value: T) {

    /** The value, or a default when missing. */
    function GetOr(default: T): T {
      match this
      case Some(v) => v
      case None => default
    }
  }

  /** The `{ success: true, data }` / `{ success: false, error }` records the
      services return. */
  datatype Result<+R, +E> = Success(value: R) | Failure(error: E)
}
